=== FILE: README.md ===
# Storefront client: a Dafny model

This project models the browser side of a small e-commerce storefront: a React
single-page application that talks to a REST backend. The model covers:

- the authentication provider's session state `(user, loading)` and its four
  operations: fetch the current user, login, register and logout;
- the top-level dispatch on the pathname and the guard in front of the
  administrator's dashboard;
- the dashboard:
  - loading products, categories and orders;
  - order status updates;
  - adding products, categories and subcategories;
  - the subcategory lookup and the stock counts;
  - order pagination and what the page shows;
- the customer's order history: its fetch effect, display precedence and
  pagination;
- the catalogue page:
  - the request URL built from the page's query parameters, with the
    `application/x-www-form-urlencoded` serialiser of the URL Standard
    (`URLSearchParams.toString`);
  - the case-insensitive search filter;
  - the stable sort;
  - what the main area shows;
- the product cards' add-to-cart button;
- both headers:
  - the main header's links, cart badge and cart drawer with its quantity
    buttons, total and account menu;
  - the signed-in header's links and menu;
- the checkout page: the order request, the success and failure paths, and the
  submit button.

Every backend request is an input of type `Backend<T>`: either the response
(`Ok`) or a failure that may carry the server's message (`Err`). Each operation
is therefore a pure function that covers both paths.

The cart manager is not part of this model. The pages read its list of lines
and its total, and the calls they make on it are returned as `CartCall` values
rather than executed.

Module layout:

| module | what it holds |
|---|---|
| `Common` | option, backend outcome, error-message fallback, display cases |
| `Text` | ASCII lower-casing and substring search |
| `Session` | the authentication provider |
| `Routing` | pathname dispatch and the dashboard guard |
| `Orders` | order record, status colours, JavaScript `slice`, pagination, the page controls |
| `Catalog` | product, category and subcategory records |
| `Cart` | cart lines, cart-manager requests, the reference line total |
| `Dashboard` | the dashboard |
| `OrderHistory` | the order-history page |
| `FormEncoding` | URL-encoded serialiser, parser and their round trip |
| `Sorting` | stable sort by an integer key |
| `ProductsPage` | the catalogue page |
| `ProductGrid` | the product cards |
| `Menus` | the role menu |
| `Navbar` | the main header |
| `UserLayout` | the signed-in header |
| `Checkout` | the checkout page |

Two behaviours of the code are worth stating up front, because a reader
might expect otherwise:

- Order history is not behind a guard. Without a signed-in user its effect
  never fetches, so the page shows its spinner for good.
- Roles are raw strings compared with `===`. They are not a closed set of
  three values. A role other than `User`, `Admin` or `moderator` passes the
  dashboard guard and gets an empty account menu.

## Model

| member | source | states |
|---|---|---|
| Common.ErrorText | src/pages/dashboard.jsx:103 | the server's message when it is a non-empty string, the page's fallback otherwise; never empty when the fallback is not |
| Text.Lower | src/pages/products.jsx:57-58 | same length; every ASCII capital becomes its lower-case letter and every other character is kept |
| Text.Includes | src/pages/products.jsx:57-58 | true exactly when the needle occurs at some position of the haystack |
| Session.Init | src/contexts/auth-context.jsx:9-10 | no user, loading |
| Session.FetchUser | src/contexts/auth-context.jsx:17-27 | loading ends; a response becomes the user, a failure clears it |
| Session.Login | src/contexts/auth-context.jsx:29-45 | a failed POST leaves the session unchanged and reports the server message or "Login failed"; a successful POST reports success and runs the user fetch |
| Session.Register | src/contexts/auth-context.jsx:47-65 | success installs the body's user and leaves loading alone; failure changes nothing and reports the message or "Registration failed" |
| Session.Logout | src/contexts/auth-context.jsx:67-75 | the user is cleared whether or not the POST succeeds; loading is untouched |
| Session.LoadingNeverReturns | src/contexts/auth-context.jsx:10-27 | once loading is false, no sequence of calls sets it again |
| Session.LoadingUntilFetch | src/contexts/auth-context.jsx:10-45 | after any sequence of calls, loading is still set exactly when it was set before and no call ran the user fetch |
| Session.LoginSucceedsWithoutUser | src/contexts/auth-context.jsx:29-37 | a successful login whose user fetch fails reports success with nobody signed in |
| Session.LogoutClearsUser | src/contexts/auth-context.jsx:67-75 | whatever came before, a logout that settles last leaves nobody signed in |
| Routing.AppRoutes | src/App.jsx:22-69 | a page is rendered only at the path it is declared under; only /dashboard redirects; the outlet is blank only while the guard waits or for a path no route declares |
| Routing.EveryPageAtItsPath | src/App.jsx:22-69 | every page except the dashboard renders at its own path for every session |
| Routing.DashboardGuard | src/App.jsx:14-20 | nothing while loading; redirect to /login without a user; redirect to /order-history for role "User"; the dashboard otherwise |
| Routing.MainLayoutIffOtherPath | src/App.jsx:22-69 | the main layout is skipped exactly for /login, /register, /checkout, /order-history and /dashboard |
| Routing.AuthPagesUnguarded | src/App.jsx:24-34 | /login and /register render their page for every session |
| Routing.OnlyDashboardGuarded | src/App.jsx:22-69 | every path other than /dashboard renders the same screen for any two sessions |
| Routing.CheckoutAndHistoryUnguarded | src/App.jsx:35-48 | checkout and order history render for every session, including anonymous and loading ones |
| Routing.DashboardShownIff | src/App.jsx:14-20 | the dashboard renders exactly for a resolved session whose user's role is not the exact string "User" |
| Routing.GuardDecidesOnceLoaded | src/App.jsx:16-19 | a resolved session always gets a redirect or the dashboard, never a blank |
| Routing.LogoutThenDashboard | src/App.jsx:17 | after a logout, the dashboard redirects to /login |
| Orders.StatusColor | src/pages/dashboard.jsx:127-142 | the grey badge exactly for a status outside the five known ones |
| Orders.StatusColorsDistinct | src/pages/order-history.jsx:48-63 | two different known statuses get different badges |
| Orders.SliceIndex | src/pages/dashboard.jsx:222 | slice's index rule: in range kept, past the end clamped, negative counted from the end and clamped at 0 |
| Orders.JsSlice | src/pages/dashboard.jsx:222 | the elements between the two resolved indices, empty when they cross |
| Orders.PageOf | src/pages/dashboard.jsx:219-222 | the orders both pages list on page p: elements 10(p-1) up to 10p, cut at the end of the list, and at most 10 of them |
| Orders.TotalPages | src/pages/dashboard.jsx:223 | the least number of 10-element pages that holds n elements; zero exactly for an empty list |
| Orders.JoinPagesPrefix | src/pages/order-history.jsx:38-42 | pages 1..k laid end to end are the first 10k orders |
| Orders.PagesCoverList | src/pages/order-history.jsx:38-42 | pages 1..totalPages laid end to end give back the whole list, in order |
| Orders.PageEmptyIffPastEnd | src/pages/dashboard.jsx:219-223 | a page is empty exactly when its number exceeds the page count |
| Orders.PreviousDisabled | src/pages/dashboard.jsx:546-548 | inert on page 1 with no pages; on any page in range, inert exactly when no earlier page is in range |
| Orders.NextDisabledAsWritten | src/pages/dashboard.jsx:562-565 | on a page in range, inert exactly when no later page is in range; but with no pages, live on page 1 (the case `Orders.NextEscapesEmptyList` exhibits) |
| Orders.NextDisabled | src/pages/dashboard.jsx:562-565 | the corrected test: on any page from 1 up, inert exactly when the next page would be out of range (`Orders.ClickStaysInRange` builds on it) |
| Orders.Click | src/pages/dashboard.jsx:541-569 | a drawn page link goes to its page; Previous steps back except on page 1; Next steps forward exactly when it is not inert; no other change of page happens |
| Orders.ClickStaysInRange | src/pages/dashboard.jsx:541-569 | with Next disabled on or past the last page, no click on any control leaves the page range |
| Orders.NextEscapesEmptyList | src/pages/dashboard.jsx:562-565 | as written, Next is live on page 1 of an empty list and moves to page 2, which shows nothing once five orders arrive |
| Dashboard.Init | src/pages/dashboard.jsx:55-84 | empty lists, loading, no error, page 1 |
| Dashboard.Load | src/pages/dashboard.jsx:87-110 | loading ends; the three lists are replaced together on success; on failure they are kept and the error is set |
| Dashboard.WithStatus | src/pages/dashboard.jsx:119-121 | same length; exactly the orders with the id get the new status; all other fields and orders are unchanged |
| Dashboard.UpdateOrderStatus | src/pages/dashboard.jsx:112-125 | success rewrites the order list and nothing else; failure sets the error and keeps the list |
| Dashboard.WithStatusIdempotent | src/pages/dashboard.jsx:119-121 | repeating the same status update changes nothing |
| Dashboard.WithStatusReachesEveryMatch | src/pages/dashboard.jsx:119-121 | after an update every order with the id has the new status, and the number of such orders is unchanged |
| Dashboard.LoadOutcomeShown | src/pages/dashboard.jsx:87-110 | after the first load the area shows the tables when all three lists arrived and every category has a subcategory list, a throw when one lacks it, and the error line when a request failed |
| Dashboard.AddProduct | src/pages/dashboard.jsx:144-176 | the created product is appended; the other lists, the error, loading and the page are kept; failure sets the error only |
| Dashboard.AddedProductCounted | src/pages/dashboard.jsx:144-176 | a created product adds one to the stock card of its own status and leaves every other count as it was |
| Dashboard.AddCategory | src/pages/dashboard.jsx:178-188 | the created category is appended after the old ones with an empty subcategory list; the other lists, the error, loading and the page are kept; failure sets the error only |
| Dashboard.NewCategoryHasNoSubcategories | src/pages/dashboard.jsx:178-217 | selecting a category just added under a fresh id offers no subcategories, whatever the response carried |
| Dashboard.AppendSubcategory | src/pages/dashboard.jsx:195-203 | every selected category gets the new subcategory after its old ones (a missing list read as empty); every other category is unchanged |
| Dashboard.AddSubcategory | src/pages/dashboard.jsx:190-211 | success updates the categories only; failure sets the error only |
| Dashboard.FindCategory | src/pages/dashboard.jsx:215 | the index of the first category whose id equals the selection, none if there is no such category |
| Dashboard.GetSubcategories | src/pages/dashboard.jsx:213-217 | the first matching category's subcategory field, or an empty list when none matches; absent when that category has no list, where the subcategory selector's `.map` at line 408 throws |
| Dashboard.AddThenGetSubcategories | src/pages/dashboard.jsx:190-217 | a lookup after adding a subcategory to the selected category returns its old list with the new one at the end |
| Dashboard.CountStatus | src/pages/dashboard.jsx:461 | never more than the number of products |
| Dashboard.StockCardsBounded | src/pages/dashboard.jsx:461-471 | in-stock plus out-of-stock plus other-status products is the product count |
| Dashboard.ChangePage | src/pages/dashboard.jsx:541-569 | a click keeps a page in range in range and leaves the orders alone |
| Dashboard.Display | src/pages/dashboard.jsx:641-667 | spinner exactly while loading, then the error line exactly when a non-empty error was set; otherwise the tables when every category has a subcategory list, and a render that throws when one does not |
| Dashboard.FormsKeepListsPresent | src/pages/dashboard.jsx:178-211 | the category and subcategory forms keep every category's subcategory list present, so only a load can make the tables throw |
| Dashboard.FailedUpdateHidesTables | src/pages/dashboard.jsx:122-124 | a failed status update shows its error in place of the tables, and neither a later successful update nor a page change brings them back |
| OrderHistory.Init | src/pages/order-history.jsx:17-21 | no orders, loading, no error, page 1 |
| OrderHistory.Fetch | src/pages/order-history.jsx:24-36 | nothing at all without a user; with one, loading ends, and success replaces the list and clears the error while failure keeps the list and sets it |
| OrderHistory.AnonymousSpinsForever | src/pages/order-history.jsx:24-25 | with no user at any run the page keeps its initial state and shows the spinner |
| OrderHistory.Display | src/pages/order-history.jsx:68-76 | the four cases in order: spinner exactly while loading, then error, then the empty message, then the list |
| OrderHistory.FetchedListShown | src/pages/order-history.jsx:28-31 | a successful fetch for a user shows the list, or the empty message for an empty list, whatever came before |
| OrderHistory.ShowPagination | src/pages/order-history.jsx:68-106 | the controls are drawn only while the list itself is shown, and then exactly when there are at least two pages |
| OrderHistory.FailedRefetchHidesControls | src/pages/order-history.jsx:32-106 | a failed fetch shows only the error line, with no controls, however long the kept list is |
| OrderHistory.NextAsWrittenSoundWhenShown | src/pages/order-history.jsx:127-130 | wherever this page draws the controls, its Next test agrees with the corrected one |
| OrderHistory.ChangePage | src/pages/order-history.jsx:106-135 | a click on a drawn control keeps a page in range in range |
| FormEncoding.Utf8 | src/pages/products.jsx:35-38 | one to four bytes by the size of the value, a single equal byte exactly for an ASCII character, a lead byte announcing the length and continuation bytes after it |
| FormEncoding.Utf8DecodeChar | src/pages/products.jsx:35-38 | decoding one character's bytes gives back that character and goes on with the rest |
| FormEncoding.Utf8RoundTrip | src/pages/products.jsx:35-38 | UTF-8 decoding inverts UTF-8 encoding for every string |
| FormEncoding.Utf8Injective | src/pages/products.jsx:35-38 | two strings have the same UTF-8 bytes exactly when they are equal |
| FormEncoding.Unreserved | src/pages/products.jsx:35-38 | the characters left as they are: all ASCII, and none of '&', '=', '?', '+', '%' or space |
| FormEncoding.EncodeChar | src/pages/products.jsx:35-38 | a character stays itself exactly when unreserved; a space takes one character, anything else three per UTF-8 byte (`FormEncoding.DecodeEncode` inverts it) |
| FormEncoding.Encode | src/pages/products.jsx:35-38 | never shorter than its input; `FormEncoding.DecodeEncode` shows it decodes back to the input's UTF-8 bytes |
| FormEncoding.Serialize | src/pages/products.jsx:35-38 | empty exactly for no parameters; `FormEncoding.ParseSerialize` shows the parser gives back every pair |
| FormEncoding.Percent | src/pages/products.jsx:38 | a byte becomes '%' followed by two characters |
| FormEncoding.PercentAllChars | src/pages/products.jsx:38 | percent-encoded bytes use only '%' and hex digits |
| FormEncoding.EncodeChars | src/pages/products.jsx:38 | an encoded string holds only the serialiser's output characters, so no '&', '=' or '?' |
| FormEncoding.DecodeEncode | src/pages/products.jsx:38 | decoding an encoded string gives back its UTF-8 bytes |
| FormEncoding.SplitSerialized | src/pages/products.jsx:38 | splitting the serialised query at '&' gives one piece per parameter |
| FormEncoding.ParsePiece | src/pages/products.jsx:38 | an encoded name=value piece parses back to the UTF-8 bytes of the name and the value |
| FormEncoding.ParseSerialize | src/pages/products.jsx:35-38 | parsing the serialised parameters gives back every name and value, in order: as UTF-8 bytes before the final decoding step, and as the original strings after it |
| Sorting.Insert | src/pages/products.jsx:61-72 | the result holds the old elements plus the new one |
| Sorting.InsertSorted | src/pages/products.jsx:61-72 | inserting into a sorted list keeps it sorted |
| Sorting.SortBy | src/pages/products.jsx:61-72 | a permutation of the input, ordered by the key |
| Sorting.SortSameElements | src/pages/products.jsx:61-72 | an element is in the sorted list exactly when it is in the input |
| Sorting.SortedPairwise | src/pages/products.jsx:61-72 | in a sorted list every earlier element's key is at most every later one's |
| Sorting.SortStable | src/pages/products.jsx:61-72 | for every key value, the elements with that key appear in the same order as in the input |
| Sorting.SortConstantIdentity | src/pages/products.jsx:69-70 | a comparator that always answers 0 leaves the list as it was |
| ProductsPage.QueryPairs | src/pages/products.jsx:34-37 | category first, then subcategory, each present exactly when non-empty and nothing else; empty exactly when both are absent or empty |
| ProductsPage.ProductsUrl | src/pages/products.jsx:33-39 | the bare endpoint without parameters; otherwise the endpoint, '?' and the serialised parameters |
| ProductsPage.SerializeHasNoQuestionMark | src/pages/products.jsx:38 | the serialised query never contains '?' |
| ProductsPage.UrlRoundTrip | src/pages/products.jsx:33-39 | the URL has a '?' exactly when a parameter is present, and the part after it parses back to exactly those parameters |
| ProductsPage.MatchesSearch | src/pages/products.jsx:57-58 | the empty query matches every product, and a name that contains the query as typed always matches |
| ProductsPage.SearchIgnoresQueryCase | src/pages/products.jsx:57-58 | a query and its lower-cased form match the same products |
| ProductsPage.Search | src/pages/products.jsx:55-60 | every matching product as many times as the catalogue holds it, and no other product |
| ProductsPage.EmptySearchKeepsAll | src/pages/products.jsx:55-60 | an empty query keeps every product in order |
| ProductsPage.SortKey | src/pages/products.jsx:61-72 | the key orders two products exactly as the page's comparator does: at most when the comparator is not positive, equal when it is zero |
| ProductsPage.FilteredProducts | src/pages/products.jsx:55-72 | every matching product as many times as the catalogue holds it, and no other product |
| ProductsPage.PriceAscending | src/pages/products.jsx:63-64 | "price-asc" lists prices in non-decreasing order |
| ProductsPage.PriceDescending | src/pages/products.jsx:65-66 | "price-desc" lists prices in non-increasing order |
| ProductsPage.EqualPricesKeepOrder | src/pages/products.jsx:61-66 | under the price sorts, products with the same price keep the order the search gave them |
| ProductsPage.UnknownSortKeepsOrder | src/pages/products.jsx:69-70 | an unrecognised sort leaves the search result in catalogue order |
| ProductsPage.Init | src/pages/products.jsx:19-21 | no products, loading, no error |
| ProductsPage.Fetch | src/pages/products.jsx:26-53 | loading ends; a response replaces the list and keeps the error; a failure keeps the list and sets the error |
| ProductsPage.ErrorSticks | src/pages/products.jsx:44-47 | once set, the error survives every later fetch |
| ProductsPage.Display | src/pages/products.jsx:100-110 | spinner exactly while loading, then a non-empty error, then "No products found" for an empty result, then the grid |
| ProductsPage.FailureHidesLaterGrid | src/pages/products.jsx:44-47 | a later successful fetch still shows the earlier failure's error instead of the grid |
| Cart.FindLine | src/components/products/product-grid.jsx:13 | the index of the first line for the product, none if there is no such line |
| ProductGrid.IsAtMaxStock | src/components/products/product-grid.jsx:12-15 | true exactly when the first cart line for the product holds at least its stock quantity; false with no such line |
| ProductGrid.AddDisabled | src/components/products/product-grid.jsx:61 | inert when the product is not in stock, and otherwise exactly when it is at its limit |
| ProductGrid.AddLabel | src/components/products/product-grid.jsx:64 | "Out of Stock", "Max in Cart" or "Add to Cart", in that order of precedence |
| ProductGrid.LabelMatchesButton | src/components/products/product-grid.jsx:61-64 | the label reads "Add to Cart" exactly when the button is live |
| ProductGrid.StockBadge | src/components/products/product-grid.jsx:46-47 | "In Stock" exactly for the in-stock status, "Out of Stock" otherwise |
| ProductGrid.BadgeAgreesWithButton | src/components/products/product-grid.jsx:46-64 | the badge reads "Out of Stock" exactly when the button does |
| ProductGrid.AddClick | src/components/products/product-grid.jsx:59-63 | an add request exactly when the button is live, only for an in-stock product whose first cart line is below its stock |
| Menus.RoleMenu | src/components/Navbar.jsx:157-175 | Order History and Logout for "User"; Dashboard, Order History and Logout for "Admin" or "moderator"; nothing for any other role |
| Menus.LogoutOfferedIff | src/components/layout/user-layout.jsx:45-62 | Logout is offered exactly for the three recognised roles |
| Menus.DashboardItemPassesGuard | src/components/Navbar.jsx:165-168 | the menu offers the dashboard only to users the guard admits, but not to every such user |
| Navbar.NavLinks | src/components/Navbar.jsx:27-57 | Home and Products always, Dashboard for any signed-in user; each highlighted exactly on its own path |
| Navbar.CartBadge | src/components/Navbar.jsx:66-72 | the badge is drawn exactly for a non-empty cart and shows the number of lines |
| Navbar.LineSubtotal | src/components/Navbar.jsx:100 | a line of at least one unit at a non-negative price shows at least its unit price |
| Navbar.QuantityClickMovesSubtotal | src/components/Navbar.jsx:100-127 | a "+" or "-" click that goes through moves the line's amount by exactly one unit price |
| Navbar.DecreaseDisabled | src/components/Navbar.jsx:116 | "-" is inert exactly when one unit fewer would go below one |
| Navbar.DecreaseClick | src/components/Navbar.jsx:113-117 | a request for one unit fewer exactly when the quantity is above one, so never below one |
| Navbar.IncreaseDisabled | src/components/Navbar.jsx:126 | always inert when quantityAvailable is absent; otherwise inert exactly when the quantity reaches any present stock field |
| Navbar.IncreaseClick | src/components/Navbar.jsx:122-127 | one unit more exactly when quantityAvailable is present and the quantity is below every present stock field; never above quantityAvailable |
| Navbar.CheckoutSection | src/components/Navbar.jsx:137-145 | the total and checkout button are drawn exactly for a non-empty cart, with the manager's total |
| Navbar.CheckoutIffBadge | src/components/Navbar.jsx:66-145 | the total and checkout button appear exactly when the cart badge does |
| Navbar.AccountArea | src/components/Navbar.jsx:149-182 | Login without a user, the role menu with one |
| Navbar.UnknownRoleSeesLinkButEmptyMenu | src/components/Navbar.jsx:46-56 | a user with an unrecognised role sees the Dashboard link and an empty menu |
| UserLayout.NavLinks | src/components/layout/user-layout.jsx:19-34 | no links without a user; Dashboard and Order History with one, each highlighted exactly on its own path |
| UserLayout.Dropdown | src/components/layout/user-layout.jsx:37-65 | no menu without a user, the role menu with one |
| UserLayout.AtMostOneHighlighted | src/components/layout/user-layout.jsx:19-34 | at most one link is highlighted on any path |
| Checkout.Init | src/pages/checkout.jsx:18-21 | empty messages and tracking id, dialog closed |
| Checkout.Items | src/pages/checkout.jsx:35-39 | one item per cart line, in order, with its product id, quantity and price |
| Checkout.BuildRequest | src/pages/checkout.jsx:29-40 | the form fields as entered, the user's id or none, the manager's total, the items of the cart |
| Checkout.ItemsTotalOfCart | src/pages/checkout.jsx:35-39 | the items add up to the cart's value; this holds by construction, since each item copies a line's price and quantity, and it serves `Checkout.RequestTotalMatchesItems` |
| Checkout.RequestTotalMatchesItems | src/pages/checkout.jsx:34-39 | when the manager's total is the cart's value, the request's total equals the sum over its items |
| Checkout.MissingField | src/pages/checkout.jsx:81-105 | true exactly when one of the three required fields is empty |
| Checkout.Submit | src/pages/checkout.jsx:24-49 | nothing happens with an empty required field; otherwise the request is sent, and success shows the message and tracking id, opens the dialog and clears the cart, while failure shows the error and leaves the cart |
| Checkout.ClearOnlyOnSuccess | src/pages/checkout.jsx:41-47 | the cart is cleared exactly when the form was complete and the order was accepted |
| Checkout.FailureAfterSuccessResets | src/pages/checkout.jsx:25-27 | a failure after a success shows only the new error, with no stale success message or tracking id |
| Checkout.SubmitEnabled | src/pages/checkout.jsx:111 | the button is live exactly for a non-empty cart with no submission in flight |
| Checkout.DrawerCheckoutCanSubmit | src/pages/checkout.jsx:111 | a cart the drawer offers to check out can be submitted while nothing is in flight, and an empty cart cannot |

## Left out

- The cart manager (adding, updating, totalling, clearing, persisting) is not part of this model. The pages' calls on it are returned as `CartCall` values, and its total is an input.
- HTTP, axios, cookies, the endpoints' hosts, the `Authorization` header set after registration, and console logging are left out. Each request is reduced to its outcome.
- React rendering, effects and the order in which concurrent requests settle are left out. Each operation is one settled step, and sequences of them are explicit lists.
- React Router's own path matching is left out: its case-insensitivity, trailing slashes and the main layout's nested `<Routes>`. Dispatch is exact string equality, as the `pathname ===` tests are.
- Routing.AppRoutes: the catalogue page wraps itself in the main layout as well, so the header and footer are drawn twice on /products. `Screen` records only whether the main layout is present, not how many times.
- The login, register and home pages and the main layout are left out. The login page calls `Session.Login`; the others call no modelled session operation.
- Session.Register: the registration page does not use it. The page posts to the register endpoint itself and then navigates to /login, so in the code shown registering never sets the session user. The page's own request and its error and success messages are not modelled.
- The theme toggle, images, dialogs that only show data, the order-details dialog and the checkout dialog's Close button are left out. They hold no logic beyond opening and closing.
- The drawer's remove button is left out. It always issues `RemoveFromCart(id)`, unconditionally.
- The product, category and subcategory forms' field handling is left out: `parseFloat` and `parseInt` of the price and quantity, and the form resets after success. The model takes the server's response as the new record.
- Prices and amounts are integers. JavaScript numbers are doubles, and `toLocaleString` formatting is left out.
- ProductsPage.SortKey: `localeCompare` is modelled as an integer rank of the name. This is a parameter, because the collation order is defined by the runtime and not by the page.
- Text.Lower: `toLowerCase` is modelled for the ASCII letters only. Full Unicode case mapping is left out.
- Strings are sequences of Unicode scalar values, while JavaScript strings are UTF-16 code units. A lone surrogate cannot be represented, so `URLSearchParams` replacing one with U+FFFD is left out of `FormEncoding.Encode`.
- `null` and `undefined` are not distinguished; both are `None`.
- Navbar.IncreaseDisabled: a stock field that is `null` is treated like an absent one. In JavaScript, `quantity >= null` compares with 0 and is true, so such a line's "+" is inert in the page but live in the model.
- Dashboard.ChangePage uses the corrected Next control (see Findings), not the one as written. The page as written is `Orders.Click` with `Orders.NextDisabledAsWritten`.
- OrderHistory.ChangePage requires the pagination to be drawn (the list shown, with more than ten orders), because the page only offers its controls then.
- FormEncoding.Utf8Decode replaces a byte that does not start a well-formed sequence with U+FFFD and resumes at the next byte. It accepts overlong forms. The URL Standard's decoder groups malformed bytes differently, but the two agree on every well-formed input, which is all the serialiser produces.
- Checkout.Submit: the backend is assumed to return a tracking id with every accepted order. In the page, a response without a body throws at `response.data.tracking_id` after the success message is set. The page would then show both the success text and "Failed to place order", leave the dialog closed and not clear the cart.
- Session.Register: the failure message is the response's `message` field, not `error`. Both are carried by the same `serverMessage` input.

## Findings

| source | as written | input that shows it | evidently intended | confidence | as-written member | corrected member |
|---|---|---|---|---|---|---|
| src/pages/dashboard.jsx:562-565 | "Next" is inert only when `currentPage === totalPages` | no orders yet (for example while the dashboard is still loading): `totalPages` is 0, page 1 differs from it, so Next stays live and moves to page 2; once 5 orders arrive, page 2 shows none of them | Next inert on or past the last page (`currentPage >= totalPages`), so the page never leaves the range | medium, not executed | Orders.NextEscapesEmptyList | Orders.ClickStaysInRange |

=== FILE: cart.dfy ===
/** The cart as the pages see it. The cart manager itself (adding, updating,
    totalling, clearing, persisting) is not part of this model: the pages
    read its list of lines and its total, and the model records the calls
    they make on it as `CartCall` values instead of executing them. */
module Cart {
  import opened Common
  import opened Catalog

  /** A cart line with every field the pages read. The four stock fields are
      probed by the drawer's "+" button and may each be absent. */
  datatype CartLine = CartLine(
    id: int,
    name: string,
    price: int,
    quantity: int,
    category: string,
    quantityInStock: Option<int>,
    quantityAvailable: Option<int>,
    stock: Option<int>,
    maxStock: Option<int>)

  /** A request to the cart manager, as issued by a click or a checkout. */
  datatype CartCall =
    | AddToCart(product: Product)
    | RemoveFromCart(id: int)
    | UpdateQuantity(id: int, quantity: int)
    | ClearCart

  /** The cart's value as the sum of unit price times quantity over its
      lines; the reference the manager's own total is compared against. */
  function LinesTotal(cart: seq<CartLine>): int
  {
    if cart == [] then 0 else cart[0].price * cart[0].quantity + LinesTotal(cart[1..])
  }

  /** Index of the first line for product `id`, if any (`Array.find`). */
  function FindLine(cart: seq<CartLine>, id: int): (r: Option<nat>)
    ensures r.Some? ==> r.value < |cart| && cart[r.value].id == id
    ensures r.Some? ==> forall j :: 0 <= j < r.value ==> cart[j].id != id
    ensures r.None? ==> forall j :: 0 <= j < |cart| ==> cart[j].id != id
  {
    if cart == [] then None
    else if cart[0].id == id then Some(0)
    else
      match FindLine(cart[1..], id)
      case None => None
      case Some(k) => Some(k + 1)
  }
}

=== FILE: catalog.dfy ===
/** The catalogue records as the backend's /api/products and /api/categories
    endpoints return them. Prices are whole PKR amounts. */
module Catalog {
  import opened Common

  datatype Product = Product(
    id: int,
    name: string,
    description: Option<string>,
    price: int,
    quantity: int,
    stockStatus: string,
    variant: Option<string>,
    category: string,
    subcategory: Option<string>)

  datatype Subcategory = Subcategory(id: int, name: string)

  /** A category; its `subcategories` list may be missing from the record. */
  datatype Category = Category(id: int, name: string, subcategories: Option<seq<Subcategory>>)

  const InStock := "in_stock"
  const OutOfStock := "out_of_stock"
}

=== FILE: checkout.dfy ===
/** The checkout page: the order request built from the form, the session
    and the cart, what a submission does on success and on failure, and
    when the submit button is live. */
module Checkout {
  import opened Common
  import opened Session
  import opened Cart
  import Navbar

  /** The three form fields, each marked required. */
  datatype Form = Form(name: string, address: string, phone: string)

  datatype OrderItem = OrderItem(productId: int, quantity: int, price: int)

  /** The body of POST /api/orders. `userId` is absent for an anonymous
      visitor: checkout does not need a signed-in user. */
  datatype OrderRequest = OrderRequest(
    name: string,
    address: string,
    phone: string,
    userId: Option<int>,
    totalAmount: int,
    items: seq<OrderItem>)

  datatype State = State(error: string, success: string, trackingId: string, dialogOpen: bool)

  const PlacedMessage := "Order placed successfully!"
  const OrderError := "Failed to place order"

  function Init(): (st: State)
    ensures st.error == "" && st.success == "" && st.trackingId == "" && !st.dialogOpen
  {
    State("", "", "", false)
  }

  /** One request item per cart line, in cart order. */
  function Items(cart: seq<CartLine>): (r: seq<OrderItem>)
    ensures |r| == |cart|
    ensures forall i :: 0 <= i < |cart| ==>
      r[i].productId == cart[i].id && r[i].quantity == cart[i].quantity && r[i].price == cart[i].price
  {
    seq(|cart|, i requires 0 <= i < |cart| => OrderItem(cart[i].id, cart[i].quantity, cart[i].price))
  }

  /** The request `onSubmit` sends; `cartTotal` is the cart manager's total
      at the moment of submission. */
  function BuildRequest(form: Form, user: Option<User>, cart: seq<CartLine>, cartTotal: int): (r: OrderRequest)
    ensures r.name == form.name && r.address == form.address && r.phone == form.phone
    ensures r.userId.Some? <==> user.Some?
    ensures user.Some? ==> r.userId.value == user.value.id
    ensures r.totalAmount == cartTotal
    ensures r.items == Items(cart)
  {
    OrderRequest(form.name, form.address, form.phone,
      if user.Some? then Some(user.value.id) else None,
      cartTotal, Items(cart))
  }

  function ItemsTotal(items: seq<OrderItem>): int
  {
    if items == [] then 0 else items[0].price * items[0].quantity + ItemsTotal(items[1..])
  }

  /** The items carry the cart's full value: when the manager's total is the
      sum over lines, the request's total equals the sum over its items. */
  lemma {:induction false} RequestTotalMatchesItems(form: Form, user: Option<User>, cart: seq<CartLine>)
    ensures ItemsTotal(BuildRequest(form, user, cart, LinesTotal(cart)).items) == BuildRequest(form, user, cart, LinesTotal(cart)).totalAmount
  {
    ItemsTotalOfCart(cart);
  }

  lemma {:induction false} ItemsTotalOfCart(cart: seq<CartLine>)
    ensures ItemsTotal(Items(cart)) == LinesTotal(cart)
  {
    if cart != [] {
      assert Items(cart)[1..] == Items(cart[1..]);
      ItemsTotalOfCart(cart[1..]);
    }
  }

  /** A required field left empty. */
  predicate MissingField(form: Form): (b: bool)
    ensures b <==> exists f :: f in [form.name, form.address, form.phone] && |f| == 0
  {
    form.name == "" || form.address == "" || form.phone == ""
  }

  /** What one press of "Place Order" produces: the page state afterwards,
      the request sent (none when a required field is empty), and the calls
      made on the cart manager. */
  datatype Submission = Submission(state: State, request: Option<OrderRequest>, calls: seq<CartCall>)

  /** `handleSubmit(onSubmit)`: a form with an empty required field is not
      submitted. Otherwise the messages and tracking id are reset, the order
      is posted, and then either the success state is set, the dialog opens
      and the cart is cleared, or the error is set and the cart is left
      alone. `post` carries the tracking id of the created order. */
  function Submit(st: State, form: Form, user: Option<User>, cart: seq<CartLine>, cartTotal: int, post: Backend<string>): (s: Submission)
    ensures MissingField(form) ==> s == Submission(st, None, [])
    ensures !MissingField(form) ==> s.request == Some(BuildRequest(form, user, cart, cartTotal))
    ensures !MissingField(form) && post.Ok? ==>
      s.state == State("", PlacedMessage, post.value, true) && s.calls == [ClearCart]
    ensures !MissingField(form) && post.Err? ==>
      s.state == State(ErrorText(post.serverMessage, OrderError), "", "", st.dialogOpen) && s.calls == []
  {
    if MissingField(form) then Submission(st, None, [])
    else
      var reset := st.(error := "", success := "", trackingId := "");
      var request := BuildRequest(form, user, cart, cartTotal);
      match post
      case Ok(tracking) => Submission(reset.(success := PlacedMessage, trackingId := tracking, dialogOpen := true), Some(request), [ClearCart])
      case Err(msg) => Submission(reset.(error := ErrorText(msg, OrderError)), Some(request), [])
  }

  /** The cart is cleared exactly when an order was accepted. */
  lemma ClearOnlyOnSuccess(st: State, form: Form, user: Option<User>, cart: seq<CartLine>, cartTotal: int, post: Backend<string>)
    ensures ClearCart in Submit(st, form, user, cart, cartTotal, post).calls <==> !MissingField(form) && post.Ok?
  {
  }

  /** A failed submission after an earlier success shows only the new
      error: the old success message and tracking id are gone. */
  lemma FailureAfterSuccessResets(st: State, form: Form, user: Option<User>, cart: seq<CartLine>, cartTotal: int, tracking: string, msg: Option<string>)
    requires !MissingField(form)
    ensures var first := Submit(st, form, user, cart, cartTotal, Ok(tracking)).state;
            var second := Submit(first, form, user, cart, cartTotal, Err(msg)).state;
            second.success == "" && second.trackingId == "" && second.error != ""
  {
  }

  /** "Place Order" is live only for a non-empty cart with no submission in
      flight. */
  function SubmitEnabled(isSubmitting: bool, cart: seq<CartLine>): (b: bool)
    ensures b <==> !isSubmitting && |cart| > 0
  {
    !(isSubmitting || |cart| == 0)
  }

  /** A cart the drawer offers to check out can be submitted on the checkout
      page while no submission is in flight; an empty one cannot. */
  lemma DrawerCheckoutCanSubmit(cart: seq<CartLine>, cartTotal: int)
    ensures Navbar.CheckoutSection(cart, cartTotal).Some? <==> SubmitEnabled(false, cart)
  {
  }
}

=== FILE: common.dfy ===
/** Shared vocabulary: optional values, the outcome of a backend request, and
    the way every page turns a failed request into a message. */
module Common {

  datatype Option<+T> = None | Some(value: T)

  /** The outcome of one HTTP request to the backend. A failure carries the
      `error` field of the response body when the server sent one. */
  datatype Backend<+T> = Ok(value: T) | Err(serverMessage: Option<string>)

  /** JavaScript truthiness of an optional string: absent and "" are falsy. */
  predicate Truthy(s: Option<string>)
  {
    s.Some? && s.value != ""
  }

  /** `err.response?.data?.error || fallback`: the server's message when it
      is a non-empty string, the page's fixed fallback otherwise. */
  function ErrorText(serverMessage: Option<string>, fallback: string): (r: string)
    ensures Truthy(serverMessage) ==> r == serverMessage.value
    ensures !Truthy(serverMessage) ==> r == fallback
    ensures fallback != "" ==> r != ""
  {
    if Truthy(serverMessage) then serverMessage.value else fallback
  }

  /** What a list page shows in its main area, in the order the pages test
      for it: a spinner, an error line, an empty-list message, the list.
      `RenderError` is a render that throws before the list is drawn. */
  datatype Display = Spinner | ErrorLine(text: string) | EmptyMessage | Listing | RenderError

  /** Reassociation of concatenations, stated over plain sequences so that
      proofs about recursive sequence functions can hand it the three
      equations they have established. */
  lemma Regroup<T>(a: seq<T>, r: seq<T>, b: seq<T>, p: seq<T>, w: seq<T>, q: seq<T>)
    requires a == p + r && r == w + q && b == p + w
    ensures a == b + q
  {
  }

  /** Concatenation is associative, stated over plain sequences. */
  lemma Assoc<T>(p: seq<T>, w: seq<T>, q: seq<T>)
    ensures (p + w) + q == p + (w + q)
  {
  }
}

=== FILE: dashboard.dfy ===
/** The administrator's dashboard: the products, categories and orders it
    loads, the list updates its forms make after a successful POST or PUT,
    the subcategory lookup, the stock counts and the order pagination. */
module Dashboard {
  import opened Common
  import opened Catalog
  import opened Orders

  datatype State = State(
    products: seq<Product>,
    categories: seq<Category>,
    orders: seq<Order>,
    loading: bool,
    error: Option<string>,
    page: int)

  const GenericError := "An error occurred"
  const StatusUpdateError := "Failed to update order status"

  function Init(): (st: State)
    ensures st.loading && st.error.None? && st.page == 1
    ensures st.products == [] && st.categories == [] && st.orders == []
  {
    State([], [], [], true, None, 1)
  }

  /** The mount effect: the three lists are requested together and set only
      when all three arrive; any failure sets the error instead. */
  function Load(st: State, fetched: Backend<(seq<Product>, seq<Category>, seq<Order>)>): (t: State)
    ensures !t.loading && t.page == st.page
    ensures fetched.Ok? ==> t.products == fetched.value.0 && t.categories == fetched.value.1 && t.orders == fetched.value.2
    ensures fetched.Ok? ==> t.error == st.error
    ensures fetched.Err? ==> t.products == st.products && t.categories == st.categories && t.orders == st.orders
    ensures fetched.Err? ==> t.error == Some(ErrorText(fetched.serverMessage, GenericError))
  {
    match fetched
    case Ok((ps, cs, os)) => st.(products := ps, categories := cs, orders := os, loading := false)
    case Err(msg) => st.(error := Some(ErrorText(msg, GenericError)), loading := false)
  }

  /** The order list after a status change: each order whose id matches gets
      the new status, every other field and every other order stays. */
  function WithStatus(orders: seq<Order>, orderId: int, newStatus: string): (r: seq<Order>)
    ensures |r| == |orders|
    ensures forall i :: 0 <= i < |r| ==> r[i].(status := orders[i].status) == orders[i]
    ensures forall i :: 0 <= i < |r| ==> r[i].status == (if orders[i].id == orderId then newStatus else orders[i].status)
  {
    seq(|orders|, i requires 0 <= i < |orders| =>
      if orders[i].id == orderId then orders[i].(status := newStatus) else orders[i])
  }

  /** `handleUpdateOrderStatus`: PUT the status; on success rewrite the list,
      on failure keep it and set the error. */
  function UpdateOrderStatus(st: State, orderId: int, newStatus: string, put: Backend<Order>): (t: State)
    ensures put.Ok? ==> t == st.(orders := WithStatus(st.orders, orderId, newStatus))
    ensures put.Err? ==> t == st.(error := Some(ErrorText(put.serverMessage, StatusUpdateError)))
  {
    match put
    case Ok(_) => st.(orders := WithStatus(st.orders, orderId, newStatus))
    case Err(msg) => st.(error := Some(ErrorText(msg, StatusUpdateError)))
  }

  /** Orders with the given id, in list order. */
  function Matching(orders: seq<Order>, orderId: int): seq<Order>
  {
    if orders == [] then []
    else (if orders[0].id == orderId then [orders[0]] else []) + Matching(orders[1..], orderId)
  }

  /** A second identical update changes nothing. */
  lemma WithStatusIdempotent(orders: seq<Order>, orderId: int, newStatus: string)
    ensures WithStatus(WithStatus(orders, orderId, newStatus), orderId, newStatus) == WithStatus(orders, orderId, newStatus)
  {
  }

  /** After an update, every order with the id carries the new status, and
      no order gained or lost the id. */
  lemma {:induction false} WithStatusReachesEveryMatch(orders: seq<Order>, orderId: int, newStatus: string)
    ensures forall o :: o in Matching(WithStatus(orders, orderId, newStatus), orderId) ==> o.status == newStatus
    ensures |Matching(WithStatus(orders, orderId, newStatus), orderId)| == |Matching(orders, orderId)|
  {
    if orders != [] {
      var r := WithStatus(orders, orderId, newStatus);
      assert r[1..] == WithStatus(orders[1..], orderId, newStatus);
      WithStatusReachesEveryMatch(orders[1..], orderId, newStatus);
    }
  }

  /** `handleAddProduct`: the created product is appended. */
  function AddProduct(st: State, post: Backend<Product>): (t: State)
    ensures post.Ok? ==> t.products == st.products + [post.value] && t.categories == st.categories && t.orders == st.orders
    ensures post.Ok? ==> t.error == st.error && t.loading == st.loading && t.page == st.page
    ensures post.Err? ==> t == st.(error := Some(ErrorText(post.serverMessage, GenericError)))
  {
    match post
    case Ok(p) => st.(products := st.products + [p])
    case Err(msg) => st.(error := Some(ErrorText(msg, GenericError)))
  }

  /** `handleAddCategory`: the created category is appended with an empty
      subcategory list, whatever the response said about subcategories. */
  function AddCategory(st: State, post: Backend<Category>): (t: State)
    ensures post.Ok? ==> |t.categories| == |st.categories| + 1 && t.categories[..|st.categories|] == st.categories
    ensures post.Ok? ==> var c := t.categories[|st.categories|];
      c.id == post.value.id && c.name == post.value.name && c.subcategories == Some([])
    ensures post.Ok? ==> t.products == st.products && t.orders == st.orders
    ensures post.Ok? ==> t.error == st.error && t.loading == st.loading && t.page == st.page
    ensures post.Err? ==> t == st.(error := Some(ErrorText(post.serverMessage, GenericError)))
  {
    match post
    case Ok(c) => st.(categories := st.categories + [c.(subcategories := Some([]))])
    case Err(msg) => st.(error := Some(ErrorText(msg, GenericError)))
  }

  /** A category added under a fresh id offers no subcategories: the list
      it gets is empty even when the response carried some. */
  lemma NewCategoryHasNoSubcategories(st: State, c: Category)
    requires forall j :: 0 <= j < |st.categories| ==> st.categories[j].id != c.id
    ensures GetSubcategories(AddCategory(st, Ok(c)).categories, Some(c.id)) == Some([])
  {
    var cats := AddCategory(st, Ok(c)).categories;
    assert Selected(Some(c.id), cats[|st.categories|]);
    forall j | 0 <= j < |st.categories| ensures !Selected(Some(c.id), cats[j]) {
      assert cats[j] == st.categories[j];
    }
  }

  /** A category's subcategory list, a missing one read as empty. */
  function SubsOrEmpty(c: Category): seq<Subcategory>
  {
    if c.subcategories.Some? then c.subcategories.value else []
  }

  /** The selected category's id equals this category's; no category
      matches when nothing is selected. */
  predicate Selected(selected: Option<int>, c: Category)
  {
    selected.Some? && selected.value == c.id
  }

  /** Appends `sub` to every category the selection matches. */
  function AppendSubcategory(cats: seq<Category>, selected: Option<int>, sub: Subcategory): (r: seq<Category>)
    ensures |r| == |cats|
    ensures forall i :: 0 <= i < |r| ==> !Selected(selected, cats[i]) ==> r[i] == cats[i]
    ensures forall i :: 0 <= i < |r| ==> Selected(selected, cats[i]) ==>
      r[i].id == cats[i].id && r[i].name == cats[i].name && r[i].subcategories == Some(SubsOrEmpty(cats[i]) + [sub])
  {
    seq(|cats|, i requires 0 <= i < |cats| =>
      if Selected(selected, cats[i]) then cats[i].(subcategories := Some(SubsOrEmpty(cats[i]) + [sub])) else cats[i])
  }

  /** `handleAddSubcategory`: POST under the selected category, then append
      the created subcategory to the matching category's list. */
  function AddSubcategory(st: State, selected: Option<int>, post: Backend<Subcategory>): (t: State)
    ensures post.Ok? ==> t == st.(categories := AppendSubcategory(st.categories, selected, post.value))
    ensures post.Err? ==> t == st.(error := Some(ErrorText(post.serverMessage, GenericError)))
  {
    match post
    case Ok(sub) => st.(categories := AppendSubcategory(st.categories, selected, sub))
    case Err(msg) => st.(error := Some(ErrorText(msg, GenericError)))
  }

  /** Index of the first category the selection matches, if any. */
  function FindCategory(cats: seq<Category>, selected: Option<int>): (r: Option<nat>)
    ensures r.Some? ==> r.value < |cats| && Selected(selected, cats[r.value])
    ensures r.Some? ==> forall j :: 0 <= j < r.value ==> !Selected(selected, cats[j])
    ensures r.None? ==> forall j :: 0 <= j < |cats| ==> !Selected(selected, cats[j])
  {
    if cats == [] then None
    else if Selected(selected, cats[0]) then Some(0)
    else
      match FindCategory(cats[1..], selected)
      case None => None
      case Some(k) => Some(k + 1)
  }

  /** `getSubcategories`: the first matching category's `subcategories`
      field (which is absent when the record had none), or an empty list
      when no category matches. */
  function GetSubcategories(cats: seq<Category>, selected: Option<int>): (r: Option<seq<Subcategory>>)
    ensures (forall j :: 0 <= j < |cats| ==> !Selected(selected, cats[j])) ==> r == Some([])
    ensures forall i :: (0 <= i < |cats| && Selected(selected, cats[i]) && (forall j :: 0 <= j < i ==> !Selected(selected, cats[j])))
                        ==> r == cats[i].subcategories
  {
    match FindCategory(cats, selected)
    case None => Some([])
    case Some(i) => cats[i].subcategories
  }

  /** Adding a subcategory and then looking up the same selection yields the
      list as it was (missing read as empty) with the new one at the end. */
  lemma AddThenGetSubcategories(st: State, selected: Option<int>, sub: Subcategory)
    requires exists i :: 0 <= i < |st.categories| && Selected(selected, st.categories[i])
    ensures var i := FindCategory(st.categories, selected).value;
      GetSubcategories(AddSubcategory(st, selected, Ok(sub)).categories, selected) == Some(SubsOrEmpty(st.categories[i]) + [sub])
  {
    var i := FindCategory(st.categories, selected).value;
    var r := AppendSubcategory(st.categories, selected, sub);
    forall j | 0 <= j < i ensures !Selected(selected, r[j]) {
      assert r[j] == st.categories[j];
    }
  }

  /** Products whose stock status is exactly `status`. */
  function CountStatus(products: seq<Product>, status: string): (r: nat)
    ensures r <= |products|
  {
    if products == [] then 0
    else (if products[0].stockStatus == status then 1 else 0) + CountStatus(products[1..], status)
  }

  lemma {:induction false} CountStatusAppend(products: seq<Product>, p: Product, status: string)
    ensures CountStatus(products + [p], status) == CountStatus(products, status) + (if p.stockStatus == status then 1 else 0)
  {
    if products != [] {
      assert (products + [p])[1..] == products[1..] + [p];
      CountStatusAppend(products[1..], p, status);
    }
  }

  /** A created product is counted on the card of its own stock status and
      leaves every other card as it was. */
  lemma AddedProductCounted(st: State, p: Product, status: string)
    ensures CountStatus(AddProduct(st, Ok(p)).products, status)
         == CountStatus(st.products, status) + (if p.stockStatus == status then 1 else 0)
  {
    CountStatusAppend(st.products, p, status);
  }

  /** The "In Stock" and "Out of Stock" cards count disjoint sets of
      products, so together they never exceed "Total Products"; products
      with any other status are in neither. */
  lemma {:induction false} StockCardsBounded(products: seq<Product>)
    ensures CountStatus(products, InStock) + CountStatus(products, OutOfStock) + |Other(products)| == |products|
  {
    if products != [] {
      StockCardsBounded(products[1..]);
    }
  }

  /** Products counted on neither stock card. */
  function Other(products: seq<Product>): seq<Product>
  {
    if products == [] then []
    else (if products[0].stockStatus !in {InStock, OutOfStock} then [products[0]] else []) + Other(products[1..])
  }

  /** A click on a pagination control, with the corrected "Next". */
  function ChangePage(st: State, c: Control): (t: State)
    ensures PageInRange(st.page, TotalPages(|st.orders|)) ==> PageInRange(t.page, TotalPages(|st.orders|))
    ensures t.orders == st.orders
  {
    st.(page := Click(st.page, TotalPages(|st.orders|), c, NextDisabled))
  }

  /** Every category carries a subcategory list, as the categories table
      needs: it maps over each list without a guard. */
  predicate ListsPresent(cats: seq<Category>)
  {
    forall i :: 0 <= i < |cats| ==> cats[i].subcategories.Some?
  }

  /** The categories-and-products area below the orders table: a spinner
      while loading, then the error when a non-empty one was set (the
      page's `error ?` test), else the tables. Drawing the tables throws
      when some category has no subcategory list. */
  function Display(st: State): (d: Common.Display)
    ensures d == Spinner <==> st.loading
    ensures d.ErrorLine? <==> !st.loading && Truthy(st.error)
    ensures d.ErrorLine? ==> d.text == st.error.value
    ensures d == Listing <==> !st.loading && !Truthy(st.error) && ListsPresent(st.categories)
    ensures d == RenderError <==> !st.loading && !Truthy(st.error)
                                  && exists i :: 0 <= i < |st.categories| && st.categories[i].subcategories.None?
  {
    if st.loading then Spinner
    else if Truthy(st.error) then ErrorLine(st.error.value)
    else if ListsPresent(st.categories) then Listing
    else RenderError
  }

  /** Only a load can bring in a category without a subcategory list: the
      category and subcategory forms always leave every list present. */
  lemma FormsKeepListsPresent(st: State, cat: Backend<Category>, selected: Option<int>, sub: Backend<Subcategory>)
    requires ListsPresent(st.categories)
    ensures ListsPresent(AddCategory(st, cat).categories)
    ensures ListsPresent(AddSubcategory(st, selected, sub).categories)
  {
  }

  /** The first load decides what the area shows: the tables when all three
      lists arrive and every category has its subcategory list, a throw when
      one lacks it, the error line when any request fails. */
  lemma LoadOutcomeShown(fetched: Backend<(seq<Product>, seq<Category>, seq<Order>)>)
    ensures fetched.Ok? && ListsPresent(fetched.value.1) ==> Display(Load(Init(), fetched)) == Listing
    ensures fetched.Ok? && !ListsPresent(fetched.value.1) ==> Display(Load(Init(), fetched)) == RenderError
    ensures fetched.Err? ==> Display(Load(Init(), fetched)) == ErrorLine(ErrorText(fetched.serverMessage, GenericError))
  {
  }

  /** A failed status update hides the tables behind the error line, and
      neither a later successful update nor a page change brings them back. */
  lemma {:induction false} FailedUpdateHidesTables(st: State, orderId: int, newStatus: string, msg: Option<string>, again: Order, c: Control)
    requires !st.loading
    ensures Display(UpdateOrderStatus(st, orderId, newStatus, Err(msg))) == ErrorLine(ErrorText(msg, StatusUpdateError))
    ensures Display(UpdateOrderStatus(UpdateOrderStatus(st, orderId, newStatus, Err(msg)), orderId, newStatus, Ok(again))).ErrorLine?
    ensures Display(ChangePage(UpdateOrderStatus(st, orderId, newStatus, Err(msg)), c)).ErrorLine?
  {
  }
}

=== FILE: form_encoding.dfy ===
/** The application/x-www-form-urlencoded serialiser that `URLSearchParams`
    applies in `toString()` (WHATWG URL Standard, section 5.2), and the
    matching parser (section 5.1) used as its partner: parsing a serialised
    parameter list gives back every name and value, with UTF-8 (RFC 3629)
    encoding and decoding in between. */
module FormEncoding {
  import opened Common

  /** A byte as a number 0..255. */
  type Byte = b: int | 0 <= b < 256

  /** The UTF-8 encoding of one Unicode scalar value (RFC 3629, section 3):
      one to four bytes by the size of the value, a lead byte that announces
      the length, and continuation bytes of the form 10xxxxxx. */
  function Utf8(c: char): (r: seq<Byte>)
    ensures |r| == SequenceLength(c as int)
    ensures c as int < 0x80 <==> r == [c as int]
    ensures LeadLength(r[0]) == |r|
    ensures forall i :: 1 <= i < |r| ==> Continuation(r[i])
  {
    var n := c as int;
    if n < 0x80 then [n]
    else if n < 0x800 then [0xC0 + n / 64, 0x80 + n % 64]
    else if n < 0x10000 then [0xE0 + n / 4096, 0x80 + (n / 64) % 64, 0x80 + n % 64]
    else [0xF0 + n / 262144, 0x80 + (n / 4096) % 64, 0x80 + (n / 64) % 64, 0x80 + n % 64]
  }

  /** The number of bytes UTF-8 spends on a scalar value. */
  function SequenceLength(n: int): int
  {
    if n < 0x80 then 1 else if n < 0x800 then 2 else if n < 0x10000 then 3 else 4
  }

  /** The sequence length a lead byte announces; 0 for a byte that cannot
      start a sequence. */
  function LeadLength(b: Byte): int
  {
    if b < 0x80 then 1
    else if b < 0xC0 then 0
    else if b < 0xE0 then 2
    else if b < 0xF0 then 3
    else if b < 0xF8 then 4
    else 0
  }

  predicate Continuation(b: Byte)
  {
    0x80 <= b < 0xC0
  }

  function Utf8String(s: string): seq<Byte>
  {
    if s == [] then [] else Utf8(s[0]) + Utf8String(s[1..])
  }

  /** The numbers that are Unicode scalar values, the range of `char`. */
  predicate ScalarValue(n: int)
  {
    (0 <= n < 0xD800) || (0xE000 <= n < 0x11_0000)
  }

  /** The value a well-formed sequence of `k` bytes carries: the lead
      byte's payload bits followed by six bits per continuation byte. */
  function SequenceValue(bs: seq<Byte>, k: int): int
    requires 1 <= k <= 4 && k <= |bs|
  {
    if k == 1 then bs[0]
    else if k == 2 then (bs[0] as int - 0xC0) * 64 + (bs[1] as int - 0x80)
    else if k == 3 then (bs[0] as int - 0xE0) * 4096 + (bs[1] as int - 0x80) * 64 + (bs[2] as int - 0x80)
    else (bs[0] as int - 0xF0) * 262144 + (bs[1] as int - 0x80) * 4096 + (bs[2] as int - 0x80) * 64 + (bs[3] as int - 0x80)
  }

  /** A well-formed sequence starts `bs`: a lead byte, as many continuation
      bytes as it announces, and a scalar value. */
  predicate DecodableAt(bs: seq<Byte>)
  {
    |bs| > 0 && 1 <= LeadLength(bs[0]) <= |bs|
    && var k := LeadLength(bs[0]);
    && (forall i :: 1 <= i < k ==> Continuation(bs[i]))
    && ScalarValue(SequenceValue(bs, k))
  }

  const Replacement: char := '\U{FFFD}'

  /** UTF-8 decoding: each well-formed sequence becomes its character; a
      byte that does not start one becomes U+FFFD and decoding resumes at
      the next byte. */
  function Utf8Decode(bs: seq<Byte>): string
    decreases |bs|
  {
    if bs == [] then []
    else if DecodableAt(bs) then
      var k := LeadLength(bs[0]);
      [SequenceValue(bs, k) as char] + Utf8Decode(bs[k..])
    else [Replacement] + Utf8Decode(bs[1..])
  }

  /** Six-bit groups: a number is its quotient by 64 shifted back up plus
      its low six bits. */
  lemma SixBits(n: int)
    requires 0 <= n
    ensures (n / 64) * 64 + n % 64 == n
    ensures n / 4096 == (n / 64) / 64 && n / 262144 == (n / 4096) / 64
  {
  }

  /** The bytes of one character carry back its value. */
  lemma Utf8Value(c: char)
    ensures SequenceValue(Utf8(c), |Utf8(c)|) == c as int
  {
    var n := c as int;
    SixBits(n);
    SixBits(n / 64);
    SixBits(n / 4096);
  }

  /** Decoding reads one character's bytes back as that character and goes
      on with what follows them. */
  lemma Utf8DecodeChar(c: char, rest: seq<Byte>)
    ensures Utf8Decode(Utf8(c) + rest) == [c] + Utf8Decode(rest)
  {
    var r := Utf8(c);
    var bs := r + rest;
    var k := |r|;
    assert bs[..k] == r;
    Utf8Value(c);
    assert SequenceValue(bs, k) == SequenceValue(r, k);
    assert DecodableAt(bs);
    assert bs[k..] == rest;
  }

  /** UTF-8 decoding inverts UTF-8 encoding, so different strings never
      share their bytes. */
  lemma {:induction false} Utf8RoundTrip(s: string)
    ensures Utf8Decode(Utf8String(s)) == s
  {
    if s != [] {
      Utf8DecodeChar(s[0], Utf8String(s[1..]));
      Utf8RoundTrip(s[1..]);
    }
  }

  lemma Utf8Injective(s: string, t: string)
    ensures Utf8String(s) == Utf8String(t) <==> s == t
  {
    if Utf8String(s) == Utf8String(t) {
      Utf8RoundTrip(s);
      Utf8RoundTrip(t);
    }
  }

  /** Characters the serialiser leaves as they are. */
  predicate Unreserved(c: char): (b: bool)
    ensures b ==> c as int < 0x80 && c !in "&=?+% "
  {
    ('a' <= c <= 'z') || ('A' <= c <= 'Z') || ('0' <= c <= '9') || c in "*-._"
  }

  const HexDigits := "0123456789ABCDEF"

  /** `%XY` with upper-case hexadecimal digits. */
  function Percent(b: Byte): (r: string)
    ensures |r| == 3 && r[0] == '%'
  {
    ['%', HexDigits[b / 16], HexDigits[b % 16]]
  }

  function PercentAll(bs: seq<Byte>): (r: string)
    ensures |r| == 3 * |bs|
  {
    if bs == [] then [] else Percent(bs[0]) + PercentAll(bs[1..])
  }

  /** One character of a name or value: unreserved characters stay, space
      becomes `+`, anything else becomes its UTF-8 bytes percent-encoded. */
  function EncodeChar(c: char): (r: string)
    ensures r == [c] <==> Unreserved(c)
    ensures |r| == if Unreserved(c) || c == ' ' then 1 else 3 * |Utf8(c)|
  {
    if Unreserved(c) then [c]
    else if c == ' ' then "+"
    else PercentAll(Utf8(c))
  }

  function Encode(s: string): (r: string)
    ensures |r| >= |s|
  {
    if s == [] then [] else EncodeChar(s[0]) + Encode(s[1..])
  }

  /** `new URLSearchParams()` with the pairs appended in order, then
      `toString()`: `name=value` joined by `&`. */
  function Serialize(pairs: seq<(string, string)>): (r: string)
    ensures r == "" <==> pairs == []
  {
    if pairs == [] then ""
    else if |pairs| == 1 then Encode(pairs[0].0) + "=" + Encode(pairs[0].1)
    else Encode(pairs[0].0) + "=" + Encode(pairs[0].1) + "&" + Serialize(pairs[1..])
  }

  // ---------------------------------------------------------------------
  // The parser.

  function HexValue(c: char): (r: int)
    ensures -1 <= r < 16
  {
    if '0' <= c <= '9' then c as int - '0' as int
    else if 'A' <= c <= 'F' then c as int - 'A' as int + 10
    else if 'a' <= c <= 'f' then c as int - 'a' as int + 10
    else -1
  }

  /** Decoding one name or value: `+` is a space, `%` with two hex digits
      is that byte, any other character (a stray `%` included) stands for
      its own UTF-8 bytes. */
  function Decode(t: string): seq<Byte>
  {
    if t == [] then []
    else if t[0] == '+' then [0x20] + Decode(t[1..])
    else if t[0] == '%' && |t| >= 3 && HexValue(t[1]) >= 0 && HexValue(t[2]) >= 0 then
      [16 * HexValue(t[1]) + HexValue(t[2])] + Decode(t[3..])
    else Utf8(t[0]) + Decode(t[1..])
  }

  /** `s` cut at every occurrence of `sep`. */
  function Split(s: string, sep: char): (r: seq<string>)
    ensures |r| >= 1
  {
    if s == [] then [""]
    else if s[0] == sep then [""] + Split(s[1..], sep)
    else var rest := Split(s[1..], sep); [[s[0]] + rest[0]] + rest[1..]
  }

  function Join(parts: seq<string>, sep: char): string
    requires |parts| >= 1
  {
    if |parts| == 1 then parts[0] else parts[0] + [sep] + Join(parts[1..], sep)
  }

  /** One `name=value` piece: split at the first `=`; without one the whole
      piece is the name and the value is empty. */
  function ParsePair(piece: string): (seq<Byte>, seq<Byte>)
  {
    var halves := Split(piece, '=');
    if |halves| == 1 then (Decode(piece), [])
    else (Decode(halves[0]), Decode(Join(halves[1..], '=')))
  }

  /** Pieces between `&`, empty pieces skipped. */
  function ParsePieces(pieces: seq<string>): seq<(seq<Byte>, seq<Byte>)>
  {
    if pieces == [] then []
    else if pieces[0] == "" then ParsePieces(pieces[1..])
    else [ParsePair(pieces[0])] + ParsePieces(pieces[1..])
  }

  /** The parser up to its last step: every name and value as bytes. */
  function ParseBytes(query: string): seq<(seq<Byte>, seq<Byte>)>
  {
    ParsePieces(Split(query, '&'))
  }

  /** Each name and value UTF-8 decoded. */
  function DecodePairs(bytePairs: seq<(seq<Byte>, seq<Byte>)>): (r: seq<(string, string)>)
    ensures |r| == |bytePairs|
  {
    if bytePairs == [] then []
    else [(Utf8Decode(bytePairs[0].0), Utf8Decode(bytePairs[0].1))] + DecodePairs(bytePairs[1..])
  }

  /** The parser: the list of name-value pairs a query string stands for. */
  function Parse(query: string): seq<(string, string)>
  {
    DecodePairs(ParseBytes(query))
  }

  // ---------------------------------------------------------------------
  // The round trip.

  /** Characters an encoded string is made of. */
  predicate EncodedChar(c: char)
  {
    Unreserved(c) || c == '+' || c == '%'
  }

  lemma {:induction false} PercentAllChars(bs: seq<Byte>)
    ensures forall c :: c in PercentAll(bs) ==> EncodedChar(c)
  {
    if bs != [] {
      PercentAllChars(bs[1..]);
      assert forall c :: c in HexDigits ==> Unreserved(c);
    }
  }

  /** An encoded string holds only unreserved characters, `+` and `%`; in
      particular no `&`, `=` or `?`. */
  lemma {:induction false} EncodeChars(s: string)
    ensures forall c :: c in Encode(s) ==> EncodedChar(c)
  {
    if s != [] {
      EncodeChars(s[1..]);
      PercentAllChars(Utf8(s[0]));
    }
  }

  /** Each hexadecimal digit the serialiser writes reads back as its value. */
  lemma HexDigitValue(d: int)
    requires 0 <= d < 16
    ensures HexValue(HexDigits[d]) == d
  {
    if d < 10 {
      assert HexDigits[d] as int == '0' as int + d;
    } else {
      assert HexDigits[d] as int == 'A' as int + d - 10;
    }
  }

  /** `%XY` decodes to the byte it encodes. */
  lemma DecodePercent(b: Byte, rest: string)
    ensures Decode(Percent(b) + rest) == [b] + Decode(rest)
  {
    var t := Percent(b) + rest;
    assert t[0] == '%' && t[1] == HexDigits[b / 16] && t[2] == HexDigits[b % 16];
    HexDigitValue(b / 16);
    HexDigitValue(b % 16);
    assert t[3..] == rest;
  }

  lemma {:induction false} DecodePercentAll(bs: seq<Byte>, rest: string)
    ensures Decode(PercentAll(bs) + rest) == bs + Decode(rest)
  {
    if bs != [] {
      var b, tail := bs[0], bs[1..];
      var t := PercentAll(bs) + rest;
      assert t == Percent(b) + (PercentAll(tail) + rest);
      DecodePercent(b, PercentAll(tail) + rest);
      DecodePercentAll(tail, rest);
      assert bs == [b] + tail;
      Regroup(Decode(t), Decode(PercentAll(tail) + rest), bs, [b], tail, Decode(rest));
    } else {
      assert PercentAll(bs) + rest == rest;
    }
  }

  lemma DecodeEncodeChar(c: char, rest: string)
    ensures Decode(EncodeChar(c) + rest) == Utf8(c) + Decode(rest)
  {
    if Unreserved(c) {
      assert (EncodeChar(c) + rest)[1..] == rest;
    } else if c == ' ' {
      assert (EncodeChar(c) + rest)[1..] == rest;
    } else {
      DecodePercentAll(Utf8(c), rest);
    }
  }

  lemma EncodeCons(s: string, rest: string)
    requires s != []
    ensures Encode(s) + rest == EncodeChar(s[0]) + (Encode(s[1..]) + rest)
  {
    var p, w := EncodeChar(s[0]), Encode(s[1..]);
    assert Encode(s) == p + w;
    Assoc(p, w, rest);
  }

  /** Decoding an encoded name or value gives its UTF-8 bytes. */
  lemma {:induction false} DecodeEncode(s: string, rest: string)
    ensures Decode(Encode(s) + rest) == Utf8String(s) + Decode(rest)
  {
    if s != [] {
      var c, tail := s[0], s[1..];
      EncodeCons(s, rest);
      DecodeEncodeChar(c, Encode(tail) + rest);
      DecodeEncode(tail, rest);
      assert Utf8String(s) == Utf8(c) + Utf8String(tail);
      Regroup(Decode(Encode(s) + rest), Decode(Encode(tail) + rest), Utf8String(s), Utf8(c), Utf8String(tail), Decode(rest));
    } else {
      assert Encode(s) + rest == rest;
    }
  }

  lemma {:induction false} SplitWithout(p: string, sep: char)
    requires sep !in p
    ensures Split(p, sep) == [p]
  {
    if p != [] {
      SplitWithout(p[1..], sep);
      assert [p[0]] + p[1..] == p;
    }
  }

  lemma {:induction false} SplitAfter(p: string, sep: char, t: string)
    requires sep !in p
    ensures Split(p + [sep] + t, sep) == [p] + Split(t, sep)
  {
    if p == [] {
      assert p + [sep] + t == [sep] + t;
      assert ([sep] + t)[1..] == t;
    } else {
      var s := p + [sep] + t;
      assert s[1..] == p[1..] + [sep] + t;
      SplitAfter(p[1..], sep, t);
      assert [p[0]] + p[1..] == p;
    }
  }

  /** The encoded names and values of the pairs, in order, as `&`-pieces. */
  function Pieces(pairs: seq<(string, string)>): (r: seq<string>)
    ensures |r| == |pairs|
  {
    if pairs == [] then [] else [Encode(pairs[0].0) + "=" + Encode(pairs[0].1)] + Pieces(pairs[1..])
  }

  lemma {:induction false} SplitSerialized(pairs: seq<(string, string)>)
    requires pairs != []
    ensures Split(Serialize(pairs), '&') == Pieces(pairs)
  {
    var piece := Encode(pairs[0].0) + "=" + Encode(pairs[0].1);
    EncodeChars(pairs[0].0);
    EncodeChars(pairs[0].1);
    assert '&' !in piece;
    if |pairs| == 1 {
      SplitWithout(piece, '&');
    } else {
      SplitAfter(piece, '&', Serialize(pairs[1..]));
      SplitSerialized(pairs[1..]);
    }
  }

  /** No encoded string contains a character the query or the URL uses
      as a separator. */
  lemma NoSeparators(s: string)
    ensures '&' !in Encode(s) && '=' !in Encode(s) && '?' !in Encode(s)
  {
    EncodeChars(s);
  }

  lemma SplitPair(en: string, ev: string)
    requires '=' !in en && '=' !in ev
    ensures Split(en + "=" + ev, '=') == [en, ev]
  {
    assert en + "=" + ev == en + ['='] + ev;
    SplitAfter(en, '=', ev);
    SplitWithout(ev, '=');
  }

  lemma DecodeEncoded(s: string)
    ensures Decode(Encode(s)) == Utf8String(s)
  {
    DecodeEncode(s, []);
    assert Encode(s) + [] == Encode(s);
  }

  lemma ParsePiece(name: string, value: string)
    ensures ParsePair(Encode(name) + "=" + Encode(value)) == (Utf8String(name), Utf8String(value))
  {
    var en, ev := Encode(name), Encode(value);
    NoSeparators(name);
    NoSeparators(value);
    SplitPair(en, ev);
    assert [en, ev][1..] == [ev];
    DecodeEncoded(name);
    DecodeEncoded(value);
  }

  function BytePairs(pairs: seq<(string, string)>): seq<(seq<Byte>, seq<Byte>)>
  {
    if pairs == [] then [] else [(Utf8String(pairs[0].0), Utf8String(pairs[0].1))] + BytePairs(pairs[1..])
  }

  lemma {:induction false} ParsePiecesOf(pairs: seq<(string, string)>)
    ensures ParsePieces(Pieces(pairs)) == BytePairs(pairs)
  {
    if pairs != [] {
      ParsePiece(pairs[0].0, pairs[0].1);
      ParsePiecesOf(pairs[1..]);
    }
  }

  /** Parsing what `URLSearchParams` serialised gives back every pair, in
      order: first as the UTF-8 bytes of its name and value, then, once
      those are decoded, as the very strings that went in. */
  lemma ParseSerialize(pairs: seq<(string, string)>)
    ensures ParseBytes(Serialize(pairs)) == BytePairs(pairs)
    ensures Parse(Serialize(pairs)) == pairs
  {
    if pairs != [] {
      SplitSerialized(pairs);
      ParsePiecesOf(pairs);
    }
    DecodeBytePairs(pairs);
  }

  lemma {:induction false} DecodeBytePairs(pairs: seq<(string, string)>)
    ensures DecodePairs(BytePairs(pairs)) == pairs
  {
    if pairs != [] {
      Utf8RoundTrip(pairs[0].0);
      Utf8RoundTrip(pairs[0].1);
      DecodeBytePairs(pairs[1..]);
    }
  }
}

=== FILE: menus.dfy ===
/** What both headers share: their link type and the account dropdown they
    draw for a signed-in user. The role is compared as a raw string: 'User',
    then 'Admin' or 'moderator'; any other role gets no entries at all. */
module Menus {
  import opened Common
  import opened Session
  import opened Routing

  datatype MenuItem = DashboardItem | OrderHistoryItem | LogoutItem

  /** A header link and whether it is drawn as the current page. */
  datatype NavLink = NavLink(text: string, target: string, highlighted: bool)

  /** The dropdown's entries for a role. */
  function RoleMenu(role: string): (r: seq<MenuItem>)
    ensures role == "User" ==> r == [OrderHistoryItem, LogoutItem]
    ensures role == "Admin" || role == "moderator" ==> r == [DashboardItem, OrderHistoryItem, LogoutItem]
    ensures role !in {"User", "Admin", "moderator"} ==> r == []
  {
    (if role == "User" then [OrderHistoryItem, LogoutItem] else [])
      + (if role == "Admin" || role == "moderator" then [DashboardItem, OrderHistoryItem, LogoutItem] else [])
  }

  /** Every role the menu recognises can log out; an unrecognised role has
      no way to log out from the menu. */
  lemma LogoutOfferedIff(role: string)
    ensures LogoutItem in RoleMenu(role) <==> role in {"User", "Admin", "moderator"}
  {
  }

  /** The dropdown only offers the dashboard to users the dashboard guard
      lets in, once the session has resolved. The converse fails: a role
      such as "admin" passes the guard but gets no dashboard entry. */
  lemma DashboardItemPassesGuard(u: User)
    ensures DashboardItem in RoleMenu(u.role) ==> DashboardGuard(Session(Some(u), false)) == Show(DashboardPage)
    ensures DashboardItem !in RoleMenu("admin")
    ensures DashboardGuard(Session(Some(u.(role := "admin")), false)) == Show(DashboardPage)
  {
  }
}

=== FILE: navbar.dfy ===
/** The main layout's header: navigation links, the cart drawer with its
    per-line quantity buttons and total, and the account area. */
module Navbar {
  import opened Common
  import opened Session
  import opened Cart
  import opened Menus

  /** The header's links: Home and Products always, Dashboard for any
      signed-in user whatever the role; each highlighted on its own path. */
  function NavLinks(user: Option<User>, pathname: string): (r: seq<NavLink>)
    ensures |r| == if user.Some? then 3 else 2
    ensures r[0].target == "/" && r[1].target == "/products"
    ensures user.Some? ==> r[2].target == "/dashboard"
    ensures forall i :: 0 <= i < |r| ==> (r[i].highlighted <==> r[i].target == pathname)
  {
    [NavLink("Home", "/", pathname == "/"), NavLink("Products", "/products", pathname == "/products")]
      + (if user.Some? then [NavLink("Dashboard", "/dashboard", pathname == "/dashboard")] else [])
  }

  /** The badge on the cart icon: the number of lines, shown only when
      there is at least one. */
  function CartBadge(cart: seq<CartLine>): (r: Option<nat>)
    ensures r.Some? <==> |cart| > 0
    ensures r.Some? ==> r.value == |cart|
  {
    if |cart| > 0 then Some(|cart|) else None
  }

  /** The amount shown beside a line: unit price times quantity; a line of
      at least one unit at a non-negative price shows at least its price. */
  function LineSubtotal(line: CartLine): (r: int)
    ensures line.price >= 0 && line.quantity >= 1 ==> r >= line.price
  {
    line.price * line.quantity
  }

  /** "-" is inert at one unit or fewer. */
  predicate DecreaseDisabled(line: CartLine): (b: bool)
    ensures b <==> line.quantity - 1 < 1
  {
    line.quantity <= 1
  }

  /** A click on "-": one unit fewer, never below one. */
  function DecreaseClick(line: CartLine): (r: Option<CartCall>)
    ensures r.Some? <==> line.quantity > 1
    ensures r.Some? ==> r.value == UpdateQuantity(line.id, line.quantity - 1) && r.value.quantity >= 1
  {
    if DecreaseDisabled(line) then None else Some(UpdateQuantity(line.id, line.quantity - 1))
  }

  /** `quantity >= field` in JavaScript: false when the field is absent. */
  predicate AtOrAbove(quantity: int, field: Option<int>)
  {
    field.Some? && quantity >= field.value
  }

  /** `field ?? fallback`. */
  function Coalesce(field: Option<int>, fallback: int): int
  {
    if field.Some? then field.value else fallback
  }

  /** "+" as written: any probed stock field at or below the quantity, or
      `quantity >= (quantityAvailable ?? quantity)`. */
  function IncreaseDisabled(line: CartLine): (r: bool)
    ensures line.quantityAvailable.None? ==> r
    ensures line.quantityAvailable.Some? ==>
      (r <==> line.quantity >= line.quantityAvailable.value
              || AtOrAbove(line.quantity, line.quantityInStock)
              || AtOrAbove(line.quantity, line.stock)
              || AtOrAbove(line.quantity, line.maxStock))
  {
    var q := line.quantity;
    AtOrAbove(q, line.quantityInStock) || AtOrAbove(q, line.quantityAvailable) || AtOrAbove(q, line.stock)
      || AtOrAbove(q, line.maxStock) || q >= Coalesce(line.quantityAvailable, q)
  }

  /** Every present stock field is strictly above `quantity`. */
  predicate BelowAllBounds(quantity: int, line: CartLine)
  {
    && (line.quantityInStock.Some? ==> quantity < line.quantityInStock.value)
    && (line.quantityAvailable.Some? ==> quantity < line.quantityAvailable.value)
    && (line.stock.Some? ==> quantity < line.stock.value)
    && (line.maxStock.Some? ==> quantity < line.maxStock.value)
  }

  /** A click on "+": one unit more, requested only when `quantityAvailable`
      is present and the new quantity stays within every probed bound. */
  function IncreaseClick(line: CartLine): (r: Option<CartCall>)
    ensures r.Some? <==> line.quantityAvailable.Some? && BelowAllBounds(line.quantity, line)
    ensures r.Some? ==> r.value == UpdateQuantity(line.id, line.quantity + 1)
    ensures r.Some? ==> r.value.quantity <= line.quantityAvailable.value
  {
    if IncreaseDisabled(line) then None else Some(UpdateQuantity(line.id, line.quantity + 1))
  }

  /** Each click on "+" or "-" that goes through moves the line's amount by
      exactly one unit price. */
  lemma QuantityClickMovesSubtotal(line: CartLine)
    ensures IncreaseClick(line).Some? ==>
      LineSubtotal(line.(quantity := IncreaseClick(line).value.quantity)) == LineSubtotal(line) + line.price
    ensures DecreaseClick(line).Some? ==>
      LineSubtotal(line.(quantity := DecreaseClick(line).value.quantity)) == LineSubtotal(line) - line.price
  {
    assert line.price * (line.quantity + 1) == line.price * line.quantity + line.price;
    assert line.price * (line.quantity - 1) == line.price * line.quantity - line.price;
  }

  /** The total line and the checkout button: drawn, with the manager's
      total, only for a non-empty cart. */
  function CheckoutSection(cart: seq<CartLine>, cartTotal: int): (r: Option<int>)
    ensures r.Some? <==> |cart| > 0
    ensures r.Some? ==> r.value == cartTotal
  {
    if |cart| > 0 then Some(cartTotal) else None
  }

  /** The total and checkout button appear exactly when the cart badge
      does. */
  lemma CheckoutIffBadge(cart: seq<CartLine>, cartTotal: int)
    ensures CheckoutSection(cart, cartTotal).Some? <==> CartBadge(cart).Some?
  {
  }

  /** The right-hand account area: a Login button without a user, the role
      menu with one. */
  datatype Account = LoginButton | Dropdown(items: seq<MenuItem>)

  function AccountArea(user: Option<User>): (r: Account)
    ensures user.None? <==> r == LoginButton
    ensures user.Some? ==> r == Dropdown(RoleMenu(user.value.role))
  {
    if user.Some? then Dropdown(RoleMenu(user.value.role)) else LoginButton
  }

  /** A signed-in user with an unrecognised role sees the Dashboard link but
      an empty dropdown. */
  lemma UnknownRoleSeesLinkButEmptyMenu(u: User, pathname: string)
    requires u.role !in {"User", "Admin", "moderator"}
    ensures NavLinks(Some(u), pathname)[2].target == "/dashboard"
    ensures AccountArea(Some(u)) == Dropdown([])
  {
  }
}

=== FILE: order_history.dfy ===
/** The signed-in customer's order history: the fetch effect keyed on the
    session's user, what the page shows, and its pagination. */
module OrderHistory {
  import opened Common
  import opened Session
  import opened Orders

  datatype State = State(orders: seq<Order>, loading: bool, error: string, page: int)

  const FetchError := "Failed to fetch orders"

  function Init(): (st: State)
    ensures st.orders == [] && st.loading && st.error == "" && st.page == 1
  {
    State([], true, "", 1)
  }

  /** The effect that runs whenever the user changes: nothing at all without
      a user; otherwise GET the user's orders, replacing the list and
      clearing the error on success, keeping the list and setting the error
      on failure, and ending loading in both cases. */
  function Fetch(st: State, user: Option<User>, got: Backend<seq<Order>>): (t: State)
    ensures user.None? ==> t == st
    ensures user.Some? ==> !t.loading && t.page == st.page
    ensures user.Some? && got.Ok? ==> t.orders == got.value && t.error == ""
    ensures user.Some? && got.Err? ==> t.orders == st.orders && t.error == ErrorText(got.serverMessage, FetchError)
  {
    if user.None? then st
    else match got
      case Ok(os) => st.(orders := os, error := "", loading := false)
      case Err(msg) => st.(error := ErrorText(msg, FetchError), loading := false)
  }

  /** A run of the effect: the user at each run and the backend's answer. */
  function Run(st: State, runs: seq<(Option<User>, Backend<seq<Order>>)>): State
    decreases |runs|
  {
    if runs == [] then st else Run(Fetch(st, runs[0].0, runs[0].1), runs[1..])
  }

  /** Without a signed-in user the effect never fetches, so the page keeps
      its initial state and shows the spinner for good. */
  lemma {:induction false} AnonymousSpinsForever(runs: seq<(Option<User>, Backend<seq<Order>>)>)
    requires forall i :: 0 <= i < |runs| ==> runs[i].0.None?
    ensures Run(Init(), runs) == Init()
    ensures Display(Run(Init(), runs)) == Spinner
  {
    if runs != [] {
      AnonymousSpinsForever(runs[1..]);
    }
  }

  /** The main area: spinner while loading, then the error, then the
      "no orders yet" message, then the current page of orders. */
  function Display(st: State): (d: Common.Display)
    ensures d == Spinner <==> st.loading
    ensures d.ErrorLine? <==> !st.loading && st.error != ""
    ensures d.ErrorLine? ==> d.text == st.error
    ensures d == EmptyMessage <==> !st.loading && st.error == "" && st.orders == []
    ensures d == Listing <==> !st.loading && st.error == "" && st.orders != []
  {
    if st.loading then Spinner
    else if st.error != "" then ErrorLine(st.error)
    else if |st.orders| == 0 then EmptyMessage
    else Listing
  }

  /** A signed-in user's successful fetch shows the list, or the empty
      message when the list is empty, whatever came before. */
  lemma FetchedListShown(st: State, u: User, os: seq<Order>)
    ensures Display(Fetch(st, Some(u), Ok(os))) == if os == [] then EmptyMessage else Listing
  {
  }

  /** The controls sit inside the list branch, so they are drawn only while
      the list itself is shown, and only for more than one page's worth of
      orders. */
  function ShowPagination(st: State): (b: bool)
    ensures b ==> Display(st) == Listing && TotalPages(|st.orders|) >= 2
    ensures Display(st) == Listing ==> (b <==> TotalPages(|st.orders|) >= 2)
  {
    Display(st) == Listing && |st.orders| > OrdersPerPage
  }

  /** A failed refetch after a long list was shown hides the controls along
      with the list: only the error line is drawn. */
  lemma FailedRefetchHidesControls(st: State, u: User, msg: Option<string>)
    ensures var t := Fetch(st, Some(u), Err(msg));
            Display(t).ErrorLine? && !ShowPagination(t)
  {
  }

  /** Wherever the controls are drawn there are pages, so the page's own
      "Next" test agrees with the corrected one on every page in range. */
  lemma NextAsWrittenSoundWhenShown(st: State)
    requires ShowPagination(st)
    requires PageInRange(st.page, TotalPages(|st.orders|))
    ensures NextDisabledAsWritten(st.page, TotalPages(|st.orders|)) <==> NextDisabled(st.page, TotalPages(|st.orders|))
  {
  }

  /** A click on a drawn control. */
  function ChangePage(st: State, c: Control): (t: State)
    requires ShowPagination(st)
    ensures PageInRange(st.page, TotalPages(|st.orders|)) ==> PageInRange(t.page, TotalPages(|st.orders|))
    ensures t.orders == st.orders
  {
    st.(page := Click(st.page, TotalPages(|st.orders|), c, NextDisabledAsWritten))
  }
}

=== FILE: orders.dfy ===
/** What the dashboard and the order-history page share: the order record,
    the badge colour of an order status, and fixed-size pagination built on
    JavaScript's `Array.prototype.slice`. */
module Orders {
  import opened Common

  datatype Order = Order(id: int, status: string, totalAmount: int, createdAt: string, trackingId: Option<string>)

  const OrdersPerPage := 10

  const KnownStatuses: seq<string> := ["pending", "accepted", "shipped", "delivered", "cancelled"]
  const DefaultColor := "bg-gray-100 text-gray-800"

  /** `getStatusColor`: a badge class per known status, grey for any other
      string (including differently capitalised known ones). */
  function StatusColor(status: string): (r: string)
    ensures r == DefaultColor <==> status !in KnownStatuses
  {
    match status
    case "pending" => "bg-yellow-100 text-yellow-800"
    case "accepted" => "bg-blue-100 text-blue-800"
    case "shipped" => "bg-purple-100 text-purple-800"
    case "delivered" => "bg-green-100 text-green-800"
    case "cancelled" => "bg-red-100 text-red-800"
    case _ => DefaultColor
  }

  /** Distinct known statuses get distinct badges. */
  lemma StatusColorsDistinct(a: string, b: string)
    requires a in KnownStatuses && b in KnownStatuses && a != b
    ensures StatusColor(a) != StatusColor(b)
  {
  }

  /** The index `Array.prototype.slice` uses for a relative position: a
      negative position counts back from the end, and the result is clamped
      to 0..len. */
  function SliceIndex(len: nat, k: int): (r: nat)
    ensures r <= len
    ensures 0 <= k <= len ==> r == k
    ensures k > len ==> r == len
    ensures k < 0 ==> r == if len + k < 0 then 0 else len + k
  {
    if k < 0 then (if len + k < 0 then 0 else len + k)
    else if k > len then len
    else k
  }

  /** `s.slice(start, end)`. */
  function JsSlice<T>(s: seq<T>, start: int, end: int): (r: seq<T>)
    ensures SliceIndex(|s|, start) <= SliceIndex(|s|, end) ==> r == s[SliceIndex(|s|, start)..SliceIndex(|s|, end)]
    ensures SliceIndex(|s|, start) > SliceIndex(|s|, end) ==> r == []
  {
    var from := SliceIndex(|s|, start);
    var to := SliceIndex(|s|, end);
    if from <= to then s[from..to] else []
  }

  function Min(a: int, b: int): int
  {
    if a <= b then a else b
  }

  /** The orders shown on page `page` (numbered from 1): indices
      `(page - 1) * 10` up to `page * 10`, cut at the end of the list. */
  function PageOf<T>(s: seq<T>, page: int): (r: seq<T>)
    ensures page >= 1 ==> r == s[Min((page - 1) * OrdersPerPage, |s|)..Min(page * OrdersPerPage, |s|)]
    ensures page >= 1 ==> |r| <= OrdersPerPage
  {
    var last := page * OrdersPerPage;
    JsSlice(s, last - OrdersPerPage, last)
  }

  /** `Math.ceil(n / 10)`. */
  function TotalPages(n: nat): (r: nat)
    ensures r * OrdersPerPage >= n
    ensures r > 0 ==> (r - 1) * OrdersPerPage < n
    ensures r == 0 <==> n == 0
  {
    (n + OrdersPerPage - 1) / OrdersPerPage
  }

  /** Pages 1..k laid end to end. */
  function JoinPages<T>(s: seq<T>, k: nat): seq<T>
  {
    if k == 0 then [] else JoinPages(s, k - 1) + PageOf(s, k)
  }

  /** The first k pages together are the first k * 10 orders. */
  lemma {:induction false} JoinPagesPrefix<T>(s: seq<T>, k: nat)
    ensures JoinPages(s, k) == s[..Min(k * OrdersPerPage, |s|)]
  {
    if k > 0 {
      JoinPagesPrefix(s, k - 1);
      var a := Min((k - 1) * OrdersPerPage, |s|);
      var b := Min(k * OrdersPerPage, |s|);
      assert s[..a] + s[a..b] == s[..b];
    }
  }

  /** Pages 1..TotalPages put every order back, once and in order. */
  lemma PagesCoverList<T>(s: seq<T>)
    ensures JoinPages(s, TotalPages(|s|)) == s
  {
    JoinPagesPrefix(s, TotalPages(|s|));
    assert s[..|s|] == s;
  }

  /** Every page past the last is empty, and every page up to the last is
      not. */
  lemma PageEmptyIffPastEnd<T>(s: seq<T>, page: int)
    requires page >= 1
    ensures PageOf(s, page) == [] <==> page > TotalPages(|s|)
  {
  }

  /** The pagination controls both pages draw: previous, the numbered
      links, next. */
  datatype Control = Previous | PageLink(n: int) | Next

  /** "Previous" is inert on page 1. */
  predicate PreviousDisabled(page: int): (b: bool)
    ensures PageInRange(page, 0) ==> b
    ensures forall totalPages: nat :: PageInRange(page, totalPages) ==> (b <==> !PageInRange(page - 1, totalPages))
  {
    page == 1
  }

  /** "Next" as both pages write it: inert only on a page equal to the
      page count. */
  predicate NextDisabledAsWritten(page: int, totalPages: nat): (b: bool)
    ensures 1 <= page <= totalPages ==> (b <==> !PageInRange(page + 1, totalPages))
    ensures totalPages == 0 && page == 1 ==> !b
  {
    page == totalPages
  }

  /** "Next" inert on or past the last page; with no pages at all, page 1
      counts as the last. */
  predicate NextDisabled(page: int, totalPages: nat): (b: bool)
    ensures 1 <= page ==> (b <==> !PageInRange(page + 1, totalPages))
  {
    page >= totalPages
  }

  /** The page a click on an enabled control moves to; a click on an
      inert control, or on a link that is not drawn, leaves the page. */
  function Click(page: int, totalPages: nat, c: Control, nextDisabled: (int, nat) -> bool): (r: int)
    ensures c.PageLink? && 1 <= c.n <= totalPages ==> r == c.n
    ensures c == Previous && page != 1 ==> r == page - 1
    ensures c == Next ==> (r == page + 1 <==> !nextDisabled(page, totalPages))
    ensures r != page ==> (c.PageLink? && 1 <= r <= totalPages) || (c == Previous && r == page - 1) || (c == Next && r == page + 1)
  {
    match c
    case Previous => if PreviousDisabled(page) then page else page - 1
    case PageLink(n) => if 1 <= n <= totalPages then n else page
    case Next => if nextDisabled(page, totalPages) then page else page + 1
  }

  /** Pages a visitor can be on: 1 up to the page count, or 1 when there are
      no pages. */
  predicate PageInRange(page: int, totalPages: nat)
  {
    1 <= page && (page <= totalPages || page == 1)
  }

  /** With the corrected "Next", no click ever leaves the page range. */
  lemma ClickStaysInRange(page: int, totalPages: nat, c: Control)
    requires PageInRange(page, totalPages)
    ensures PageInRange(Click(page, totalPages, c, NextDisabled), totalPages)
  {
  }

  /** As written, while the list is empty (as it is while the dashboard is
      still loading) "Next" is live on page 1 and moves to page 2; once five
      orders arrive, page 2 shows none of them. */
  lemma NextEscapesEmptyList(orders: seq<Order>)
    requires |orders| == 5
    ensures !NextDisabledAsWritten(1, TotalPages(0))
    ensures Click(1, TotalPages(0), Next, NextDisabledAsWritten) == 2
    ensures !PageInRange(2, TotalPages(|orders|))
    ensures PageOf(orders, 2) == []
  {
  }
}

=== FILE: product_grid.dfy ===
/** The product cards' cart controls: whether the cart already holds as many
    of a product as its stock allows, and the add button's state and label. */
module ProductGrid {
  import opened Common
  import opened Catalog
  import opened Cart

  /** `isAtMaxStock`: the first cart line for the product holds at least the
      product's stock quantity; false when no line holds the product. */
  function IsAtMaxStock(cart: seq<CartLine>, p: Product): (r: bool)
    ensures r <==> exists i :: 0 <= i < |cart| && cart[i].id == p.id
                    && (forall j :: 0 <= j < i ==> cart[j].id != p.id)
                    && cart[i].quantity >= p.quantity
    ensures (forall i :: 0 <= i < |cart| ==> cart[i].id != p.id) ==> !r
  {
    match FindLine(cart, p.id)
    case None => false
    case Some(i) =>
      assert forall k :: 0 <= k < |cart| && cart[k].id == p.id && (forall j :: 0 <= j < k ==> cart[j].id != p.id) ==> k == i;
      cart[i].quantity >= p.quantity
  }

  /** The add button is inert for a product not marked in stock, or one
      already at its stock limit in the cart. */
  function AddDisabled(cart: seq<CartLine>, p: Product): (r: bool)
    ensures p.stockStatus != InStock ==> r
    ensures p.stockStatus == InStock ==> (r <==> IsAtMaxStock(cart, p))
  {
    p.stockStatus != InStock || IsAtMaxStock(cart, p)
  }

  /** The button's text: out of stock first, then at the limit, else add. */
  function AddLabel(cart: seq<CartLine>, p: Product): (r: string)
    ensures p.stockStatus != InStock ==> r == "Out of Stock"
    ensures p.stockStatus == InStock && IsAtMaxStock(cart, p) ==> r == "Max in Cart"
    ensures p.stockStatus == InStock && !IsAtMaxStock(cart, p) ==> r == "Add to Cart"
  {
    if p.stockStatus != InStock then "Out of Stock"
    else if IsAtMaxStock(cart, p) then "Max in Cart"
    else "Add to Cart"
  }

  /** The label invites adding exactly when the button is live. */
  lemma LabelMatchesButton(cart: seq<CartLine>, p: Product)
    ensures AddLabel(cart, p) == "Add to Cart" <==> !AddDisabled(cart, p)
  {
  }

  /** The stock badge's text. */
  function StockBadge(p: Product): (r: string)
    ensures r == "In Stock" <==> p.stockStatus == InStock
    ensures r != "In Stock" ==> r == "Out of Stock"
  {
    if p.stockStatus == InStock then "In Stock" else "Out of Stock"
  }

  /** The badge reads "Out of Stock" exactly when the button does. */
  lemma BadgeAgreesWithButton(cart: seq<CartLine>, p: Product)
    ensures StockBadge(p) == "Out of Stock" <==> AddLabel(cart, p) == "Out of Stock"
  {
  }

  /** A click on the add button: a live button asks the cart manager to add
      the product, an inert one does nothing. A request is only ever made
      for an in-stock product whose cart line, if any, is below its stock. */
  function AddClick(cart: seq<CartLine>, p: Product): (r: Option<CartCall>)
    ensures r.Some? ==> r.value == AddToCart(p)
    ensures r.Some? <==> !AddDisabled(cart, p)
    ensures r.Some? ==> p.stockStatus == InStock
    ensures r.Some? ==> forall i :: 0 <= i < |cart| && cart[i].id == p.id && (forall j :: 0 <= j < i ==> cart[j].id != p.id)
                          ==> cart[i].quantity < p.quantity
  {
    if AddDisabled(cart, p) then None else Some(AddToCart(p))
  }
}

=== FILE: products_page.dfy ===
/** The catalogue page: the request URL built from the page's own query
    parameters, the fetch effect, the search filter and sort behind
    `filteredProducts`, and what the main area shows. */
module ProductsPage {
  import opened Common
  import opened Text
  import opened Catalog
  import opened FormEncoding
  import opened Sorting

  const ProductsEndpoint := "http://localhost:5000/api/products"
  const FetchError := "Failed to fetch products"

  /** The query parameters the request carries: `category` first, then
      `subcategory`, each only when the page's own parameter is non-empty. */
  function QueryPairs(category: Option<string>, subcategory: Option<string>): (r: seq<(string, string)>)
    ensures r == [] <==> !Truthy(category) && !Truthy(subcategory)
    ensures |r| <= 2
    ensures Truthy(category) ==> r[0] == ("category", category.value)
    ensures Truthy(subcategory) ==> r[|r| - 1] == ("subcategory", subcategory.value)
    ensures |r| == (if Truthy(category) then 1 else 0) + (if Truthy(subcategory) then 1 else 0)
  {
    (if Truthy(category) then [("category", category.value)] else [])
      + (if Truthy(subcategory) then [("subcategory", subcategory.value)] else [])
  }

  /** The URL `fetchProducts` requests: the endpoint, and a `?` with the
      serialised parameters only when there are any. */
  function ProductsUrl(category: Option<string>, subcategory: Option<string>): (url: string)
    ensures !Truthy(category) && !Truthy(subcategory) ==> url == ProductsEndpoint
    ensures Truthy(category) || Truthy(subcategory) ==>
      url == ProductsEndpoint + "?" + Serialize(QueryPairs(category, subcategory))
  {
    var pairs := QueryPairs(category, subcategory);
    if pairs == [] then ProductsEndpoint else ProductsEndpoint + "?" + Serialize(pairs)
  }

  lemma {:induction false} SerializeHasNoQuestionMark(pairs: seq<(string, string)>)
    ensures '?' !in Serialize(pairs)
  {
    if pairs != [] {
      var piece := Encode(pairs[0].0) + "=" + Encode(pairs[0].1);
      NoSeparators(pairs[0].0);
      NoSeparators(pairs[0].1);
      assert '?' !in piece;
      if |pairs| > 1 {
        SerializeHasNoQuestionMark(pairs[1..]);
        assert Serialize(pairs) == piece + "&" + Serialize(pairs[1..]);
      }
    }
  }

  /** The URL has a `?` exactly when a parameter is present, and the part
      after it parses back to exactly the present parameters, in order. */
  lemma UrlRoundTrip(category: Option<string>, subcategory: Option<string>)
    ensures '?' in ProductsUrl(category, subcategory) <==> Truthy(category) || Truthy(subcategory)
    ensures Truthy(category) || Truthy(subcategory) ==>
      var url := ProductsUrl(category, subcategory);
      var q := url[|ProductsEndpoint| + 1..];
      url[..|ProductsEndpoint| + 1] == ProductsEndpoint + "?" && Parse(q) == QueryPairs(category, subcategory)
  {
    var pairs := QueryPairs(category, subcategory);
    assert '?' !in ProductsEndpoint;
    SerializeHasNoQuestionMark(pairs);
    ParseSerialize(pairs);
    var url := ProductsUrl(category, subcategory);
    if pairs != [] {
      assert url[|ProductsEndpoint|] == '?';
      assert url[|ProductsEndpoint| + 1..] == Serialize(pairs);
    }
  }

  /** The search test: the lower-cased query occurs in the lower-cased name
      or, when the product has one, the lower-cased description. The empty
      query matches everything, and a name that holds the query verbatim
      always matches. */
  predicate MatchesSearch(p: Product, query: string): (b: bool)
    ensures query == "" ==> b
    ensures Includes(p.name, query) ==> b
  {
    assert query == "" ==> OccursAt(Lower(query), Lower(p.name), 0);
    IncludesLower(p.name, query);
    Includes(Lower(p.name), Lower(query))
      || (p.description.Some? && Includes(Lower(p.description.value), Lower(query)))
  }

  /** The search ignores the case of the query: typing it in lower case
      finds the same products. */
  lemma SearchIgnoresQueryCase(p: Product, query: string)
    ensures MatchesSearch(p, Lower(query)) <==> MatchesSearch(p, query)
  {
    LowerIdempotent(query);
  }

  /** The filter step of `filteredProducts`. */
  function Search(products: seq<Product>, query: string): (r: seq<Product>)
    ensures |r| <= |products|
    ensures forall p :: multiset(r)[p] == if MatchesSearch(p, query) then multiset(products)[p] else 0
    ensures forall p :: p in r ==> MatchesSearch(p, query)
    ensures forall p :: p in products && MatchesSearch(p, query) ==> p in r
  {
    if products == [] then []
    else
      assert products == [products[0]] + products[1..];
      (if MatchesSearch(products[0], query) then [products[0]] else []) + Search(products[1..], query)
  }

  /** An empty query keeps every product, in order. */
  lemma {:induction false} EmptySearchKeepsAll(products: seq<Product>)
    ensures Search(products, "") == products
  {
    if products != [] {
      assert OccursAt("", Lower(products[0].name), 0);
      EmptySearchKeepsAll(products[1..]);
    }
  }

  /** The comparator `filteredProducts` hands to `sort`: negative to put
      `a` first, positive to put `b` first, zero to keep their order.
      `rank(a.name) - rank(b.name)` has the sign of `localeCompare`. */
  function Comparator(sortBy: string, rank: string -> int, a: Product, b: Product): int
  {
    match sortBy
    case "price-asc" => a.price - b.price
    case "price-desc" => b.price - a.price
    case "name" => rank(a.name) - rank(b.name)
    case _ => 0
  }

  /** The sort key behind the comparator chosen by `sortBy`. `rank` is the
      collation order `localeCompare` applies to names; an unknown `sortBy`
      compares every pair as equal. */
  function SortKey(sortBy: string, rank: string -> int): (key: Product -> int)
    ensures forall a, b :: key(a) <= key(b) <==> Comparator(sortBy, rank, a, b) <= 0
    ensures forall a, b :: key(a) == key(b) <==> Comparator(sortBy, rank, a, b) == 0
  {
    match sortBy
    case "price-asc" => (p: Product) => p.price
    case "price-desc" => (p: Product) => -p.price
    case "name" => (p: Product) => rank(p.name)
    case _ => (p: Product) => 0
  }

  /** `filteredProducts`: the search, then the stable sort. */
  function FilteredProducts(products: seq<Product>, query: string, sortBy: string, rank: string -> int): (r: seq<Product>)
    ensures forall p :: multiset(r)[p] == if MatchesSearch(p, query) then multiset(products)[p] else 0
    ensures forall p :: p in r ==> MatchesSearch(p, query)
    ensures forall p :: p in products && MatchesSearch(p, query) ==> p in r
  {
    SortSameElements(Search(products, query), SortKey(sortBy, rank));
    SortBy(Search(products, query), SortKey(sortBy, rank))
  }

  /** "Price: Low to High" lists prices in non-decreasing order. */
  lemma PriceAscending(products: seq<Product>, query: string, rank: string -> int, i: int, j: int)
    requires 0 <= i <= j < |FilteredProducts(products, query, "price-asc", rank)|
    ensures FilteredProducts(products, query, "price-asc", rank)[i].price <= FilteredProducts(products, query, "price-asc", rank)[j].price
  {
    SortedPairwise(FilteredProducts(products, query, "price-asc", rank), SortKey("price-asc", rank), i, j);
  }

  /** "Price: High to Low" lists prices in non-increasing order. */
  lemma PriceDescending(products: seq<Product>, query: string, rank: string -> int, i: int, j: int)
    requires 0 <= i <= j < |FilteredProducts(products, query, "price-desc", rank)|
    ensures FilteredProducts(products, query, "price-desc", rank)[i].price >= FilteredProducts(products, query, "price-desc", rank)[j].price
  {
    SortedPairwise(FilteredProducts(products, query, "price-desc", rank), SortKey("price-desc", rank), i, j);
  }

  /** Under a sort whose key is the price (ascending) or its negation
      (descending), the products sharing a key value keep the order the
      search returned them in: ties in price are not reordered. */
  lemma EqualPricesKeepOrder(products: seq<Product>, query: string, sortBy: string, rank: string -> int, k: int)
    requires sortBy in ["price-asc", "price-desc"]
    ensures WithKey(FilteredProducts(products, query, sortBy, rank), SortKey(sortBy, rank), k)
         == WithKey(Search(products, query), SortKey(sortBy, rank), k)
  {
    var found := Search(products, query);
    var key := SortKey(sortBy, rank);
    assert FilteredProducts(products, query, sortBy, rank) == SortBy(found, key);
    SortStable(found, key, k);
  }

  /** An unrecognised `sortBy` leaves the search result in catalogue order. */
  lemma UnknownSortKeepsOrder(products: seq<Product>, query: string, sortBy: string, rank: string -> int)
    requires sortBy !in ["price-asc", "price-desc", "name"]
    ensures FilteredProducts(products, query, sortBy, rank) == Search(products, query)
  {
    SortConstantIdentity(Search(products, query), SortKey(sortBy, rank), 0);
  }

  datatype State = State(products: seq<Product>, loading: bool, error: Option<string>)

  function Init(): (st: State)
    ensures st.products == [] && st.loading && st.error.None?
  {
    State([], true, None)
  }

  /** One settled run of `fetchProducts`: a response replaces the list, a
      failure sets the error; loading ends either way. Nothing clears the
      error. */
  function Fetch(st: State, got: Backend<seq<Product>>): (t: State)
    ensures !t.loading
    ensures got.Ok? ==> t.products == got.value && t.error == st.error
    ensures got.Err? ==> t.products == st.products && t.error == Some(ErrorText(got.serverMessage, FetchError))
  {
    match got
    case Ok(ps) => st.(products := ps, loading := false)
    case Err(msg) => st.(error := Some(ErrorText(msg, FetchError)), loading := false)
  }

  function Run(st: State, fetches: seq<Backend<seq<Product>>>): State
    decreases |fetches|
  {
    if fetches == [] then st else Run(Fetch(st, fetches[0]), fetches[1..])
  }

  /** Once a fetch has failed, the error survives every later fetch,
      successful or not. */
  lemma {:induction false} ErrorSticks(st: State, fetches: seq<Backend<seq<Product>>>)
    requires st.error.Some?
    ensures Run(st, fetches).error.Some?
    decreases |fetches|
  {
    if fetches != [] {
      ErrorSticks(Fetch(st, fetches[0]), fetches[1..]);
    }
  }

  /** The main area: spinner, then error, then "No products found", then
      the grid of the filtered products. */
  function Display(st: State, shown: seq<Product>): (d: Common.Display)
    ensures d == Spinner <==> st.loading
    ensures d.ErrorLine? <==> !st.loading && Truthy(st.error)
    ensures d.ErrorLine? ==> d.text == st.error.value
    ensures d == EmptyMessage <==> !st.loading && !Truthy(st.error) && shown == []
    ensures d == Listing <==> !st.loading && !Truthy(st.error) && shown != []
  {
    if st.loading then Spinner
    else if Truthy(st.error) then ErrorLine(st.error.value)
    else if |shown| == 0 then EmptyMessage
    else Listing
  }

  /** After a failure whose message is non-empty, a later successful fetch
      still shows the error line rather than the grid. */
  lemma FailureHidesLaterGrid(st: State, msg: Option<string>, ps: seq<Product>, shown: seq<Product>)
    ensures Display(Fetch(Fetch(st, Err(msg)), Ok(ps)), shown).ErrorLine?
  {
  }
}

=== FILE: routing.dfy ===
/** The application's top-level dispatch on the pathname and the guard in
    front of the dashboard. */
module Routing {
  import opened Common
  import opened Session

  datatype Page = LoginPage | RegisterPage | CheckoutPage | OrderHistoryPage | DashboardPage | HomePage | ProductsPage

  /** What a route element renders: nothing, a replacing redirect, or a page. */
  datatype Outlet = Blank | NavigateTo(path: string) | Show(page: Page)

  /** The whole screen: whether the main layout (navbar and footer) wraps
      the routes, and what the matched route renders. */
  datatype Screen = Screen(mainLayout: bool, outlet: Outlet)

  /** `ProtectedDashboardRoute`: the guard's decision for the dashboard. */
  function DashboardGuard(s: Session): (o: Outlet)
    ensures s.loading ==> o == Blank
    ensures !s.loading && s.user.None? ==> o == NavigateTo("/login")
    ensures !s.loading && s.user.Some? && s.user.value.role == "User" ==> o == NavigateTo("/order-history")
    ensures !s.loading && s.user.Some? && s.user.value.role != "User" ==> o == Show(DashboardPage)
  {
    if s.loading then Blank
    else if s.user.None? then NavigateTo("/login")
    else if s.user.value.role == "User" then NavigateTo("/order-history")
    else Show(DashboardPage)
  }

  /** The path each page is declared under. */
  function PagePath(page: Page): string
  {
    match page
    case LoginPage => "/login"
    case RegisterPage => "/register"
    case CheckoutPage => "/checkout"
    case OrderHistoryPage => "/order-history"
    case DashboardPage => "/dashboard"
    case HomePage => "/"
    case ProductsPage => "/products"
  }

  /** `AppRoutes`: the exact-match tests on the pathname, in source order,
      and the fall-through to the main layout's own two routes. A page is
      only ever rendered at its own path, only the dashboard redirects, and
      the outlet is left blank only by the waiting guard or by a path no
      route declares. */
  function AppRoutes(pathname: string, s: Session): (sc: Screen)
    ensures sc.outlet.Show? ==> PagePath(sc.outlet.page) == pathname
    ensures sc.outlet.NavigateTo? ==> pathname == "/dashboard"
    ensures sc.outlet == Blank ==>
      (pathname == "/dashboard" && s.loading) || forall page :: PagePath(page) != pathname
  {
    if pathname in ["/login", "/register"] then
      Screen(false, Show(if pathname == "/login" then LoginPage else RegisterPage))
    else if pathname == "/checkout" then Screen(false, Show(CheckoutPage))
    else if pathname == "/order-history" then Screen(false, Show(OrderHistoryPage))
    else if pathname == "/dashboard" then Screen(false, DashboardGuard(s))
    else if pathname == "/" then Screen(true, Show(HomePage))
    else if pathname == "/products" then Screen(true, Show(ProductsPage))
    else Screen(true, Blank)
  }

  /** Every page other than the dashboard renders at its own path for
      every session. */
  lemma EveryPageAtItsPath(page: Page, s: Session)
    requires page != DashboardPage
    ensures AppRoutes(PagePath(page), s).outlet == Show(page)
  {
  }

  /** The pages reachable without the main layout are exactly the five
      dedicated paths; everything else is wrapped in it. */
  lemma MainLayoutIffOtherPath(pathname: string, s: Session)
    ensures !AppRoutes(pathname, s).mainLayout
        <==> pathname in ["/login", "/register", "/checkout", "/order-history", "/dashboard"]
  {
  }

  /** The auth pages render their own page, whatever the session. */
  lemma AuthPagesUnguarded(s: Session)
    ensures AppRoutes("/login", s) == Screen(false, Show(LoginPage))
    ensures AppRoutes("/register", s) == Screen(false, Show(RegisterPage))
  {
  }

  /** Only the dashboard consults the session: every other path renders the
      same screen for any two sessions. */
  lemma OnlyDashboardGuarded(pathname: string, s: Session, t: Session)
    requires pathname != "/dashboard"
    ensures AppRoutes(pathname, s) == AppRoutes(pathname, t)
  {
  }

  /** Checkout and order history render for anonymous visitors and while
      the session is still loading. */
  lemma CheckoutAndHistoryUnguarded(s: Session)
    ensures AppRoutes("/checkout", s).outlet == Show(CheckoutPage)
    ensures AppRoutes("/order-history", s).outlet == Show(OrderHistoryPage)
  {
  }

  /** The dashboard renders exactly for a resolved session whose user's role
      is anything but the exact string "User"; roles such as "Admin",
      "moderator", "admin" or "" all reach it. */
  lemma DashboardShownIff(s: Session)
    ensures AppRoutes("/dashboard", s).outlet == Show(DashboardPage)
        <==> !s.loading && s.user.Some? && s.user.value.role != "User"
  {
  }

  /** A resolved session is never left on a blank dashboard. */
  lemma GuardDecidesOnceLoaded(s: Session)
    requires !s.loading
    ensures DashboardGuard(s) != Blank
  {
  }

  /** A logout followed by a visit to the dashboard, once loading has ended,
      redirects to the login page. */
  lemma LogoutThenDashboard(s: Session, post: Backend<()>)
    requires !s.loading
    ensures AppRoutes("/dashboard", Logout(s, post)).outlet == NavigateTo("/login")
  {
  }
}

=== FILE: session.dfy ===
/** The authentication provider: the pair (user, loading) and the four
    operations that change it. Each backend request is an input `Backend<_>`
    value, so every function below covers both the success and the failure
    path of the request. */
module Session {
  import opened Common

  /** The signed-in principal as the `/auth/me` endpoint returns it. The role
      is the raw string the backend sends: the pages compare it against
      'User', 'Admin' and 'moderator' and let anything else fall through. */
  datatype User = User(id: int, email: string, role: string)

  datatype Session = Session(user: Option<User>, loading: bool)

  /** What `login` and `register` hand back to the page that called them. */
  datatype AuthResult = Success | Failure(error: string)

  /** The body of a successful registration: a token and the new user. The
      user field may be missing from the body, which leaves `user` unset. */
  datatype Registration = Registration(token: string, user: Option<User>)

  const LoginFallback := "Login failed"
  const RegisterFallback := "Registration failed"

  /** The provider's state before anything has been asked of the backend. */
  function Init(): (s: Session)
    ensures s.user.None? && s.loading
  {
    Session(None, true)
  }

  /** `fetchUser`: GET /auth/me. A response becomes the user, a failure
      clears the user; either way loading ends. */
  function FetchUser(s: Session, me: Backend<User>): (t: Session)
    ensures !t.loading
    ensures me.Ok? ==> t.user == Some(me.value)
    ensures me.Err? ==> t.user.None?
  {
    match me
    case Ok(u) => Session(Some(u), false)
    case Err(_) => Session(None, false)
  }

  /** `login`: POST /auth/login, then `fetchUser` only when the POST
      succeeded. `fetchUser` handles its own failure, so a successful POST
      reports success whatever /auth/me answers. */
  function Login(s: Session, post: Backend<()>, me: Backend<User>): (out: (Session, AuthResult))
    ensures post.Err? ==> out.0 == s
    ensures post.Err? ==> out.1 == Failure(ErrorText(post.serverMessage, LoginFallback))
    ensures post.Ok? ==> out.1 == Success && !out.0.loading
    ensures post.Ok? && me.Ok? ==> out.0.user == Some(me.value)
    ensures post.Ok? && me.Err? ==> out.0.user.None?
  {
    match post
    case Err(msg) => (s, Failure(ErrorText(msg, LoginFallback)))
    case Ok(_) => (FetchUser(s, me), Success)
  }

  /** `register`: POST /auth/register. On success the body's user is taken
      as is (no /auth/me round trip); on failure nothing changes. Unlike the
      other requests, the failure message read here is the body's `message`
      field, so `serverMessage` stands for that field. */
  function Register(s: Session, post: Backend<Registration>): (out: (Session, AuthResult))
    ensures post.Ok? ==> out.0 == Session(post.value.user, s.loading) && out.1 == Success
    ensures post.Err? ==> out.0 == s
    ensures post.Err? ==> out.1 == Failure(ErrorText(post.serverMessage, RegisterFallback))
  {
    match post
    case Ok(reg) => (s.(user := reg.user), Success)
    case Err(msg) => (s, Failure(ErrorText(msg, RegisterFallback)))
  }

  /** `logout`: POST /auth/logout, whose failure is swallowed; the user is
      cleared in every case. */
  function Logout(s: Session, post: Backend<()>): (t: Session)
    ensures t.user.None?
    ensures t.loading == s.loading
  {
    s.(user := None)
  }

  /** One settled call into the provider, with the backend's answers. */
  datatype Event =
    | Mount(me: Backend<User>)
    | LoginCall(post: Backend<()>, me: Backend<User>)
    | RegisterCall(reg: Backend<Registration>)
    | LogoutCall(post: Backend<()>)

  function Step(s: Session, e: Event): Session
  {
    match e
    case Mount(me) => FetchUser(s, me)
    case LoginCall(post, me) => Login(s, post, me).0
    case RegisterCall(reg) => Register(s, reg).0
    case LogoutCall(post) => Logout(s, post)
  }

  function Run(s: Session, es: seq<Event>): Session
    decreases |es|
  {
    if es == [] then s else Run(Step(s, es[0]), es[1..])
  }

  /** An event that runs `fetchUser`: the mount effect, or a login whose
      POST succeeded. */
  predicate Fetches(e: Event)
  {
    e.Mount? || (e.LoginCall? && e.post.Ok?)
  }

  /** Nothing sets loading back to true: once false it stays false through
      any sequence of calls. */
  lemma {:induction false} LoadingNeverReturns(s: Session, es: seq<Event>)
    requires !s.loading
    ensures !Run(s, es).loading
    decreases |es|
  {
    if es != [] {
      LoadingNeverReturns(Step(s, es[0]), es[1..]);
    }
  }

  /** From any state, loading is still set after a sequence of calls exactly
      when it was set before and none of the calls ran `fetchUser`. */
  lemma {:induction false} LoadingUntilFetch(s: Session, es: seq<Event>)
    ensures Run(s, es).loading <==> s.loading && forall i :: 0 <= i < |es| ==> !Fetches(es[i])
    decreases |es|
  {
    if es != [] {
      var t := Step(s, es[0]);
      LoadingUntilFetch(t, es[1..]);
      assert t.loading <==> s.loading && !Fetches(es[0]);
      if forall i :: 0 <= i < |es[1..]| ==> !Fetches(es[1..][i]) {
        assert forall i :: 1 <= i < |es| ==> !Fetches(es[i]) by {
          forall i | 1 <= i < |es| ensures !Fetches(es[i]) {
            assert es[i] == es[1..][i - 1];
          }
        }
      } else {
        var j :| 0 <= j < |es[1..]| && Fetches(es[1..][j]);
        assert Fetches(es[j + 1]);
      }
    }
  }

  /** A login whose POST succeeded reports success even when the follow-up
      /auth/me fails and leaves nobody signed in. */
  lemma LoginSucceedsWithoutUser(s: Session)
    ensures Login(s, Ok(()), Err(None)) == (Session(None, false), Success)
  {
  }

  /** After a logout the last call to settle, nobody is signed in. */
  lemma {:induction false} LogoutClearsUser(s: Session, es: seq<Event>, post: Backend<()>)
    ensures Run(s, es + [LogoutCall(post)]).user.None?
    decreases |es|
  {
    if es != [] {
      assert (es + [LogoutCall(post)])[1..] == es[1..] + [LogoutCall(post)];
      LogoutClearsUser(Step(s, es[0]), es[1..], post);
    }
  }
}

=== FILE: sorting.dfy ===
/** `Array.prototype.sort` with a comparator that orders by an integer key
    (`(a, b) => key(a) - key(b)`). The language requires the sort to be
    stable, so the model is a stable insertion sort: elements with equal
    keys keep their relative order. */
module Sorting {
  import opened Common

  /** Each element's key is at most the next one's. */
  predicate Sorted<T>(s: seq<T>, key: T -> int)
  {
    forall i :: 0 <= i < |s| - 1 ==> key(s[i]) <= key(s[i + 1])
  }

  /** Inserts `x` after every element whose key is at most `x`'s. */
  function Insert<T>(t: seq<T>, x: T, key: T -> int): (r: seq<T>)
    ensures multiset(r) == multiset(t) + multiset{x}
    ensures r != [] && (r[0] == x || (t != [] && r[0] == t[0]))
  {
    if t == [] then [x]
    else if key(t[0]) <= key(x) then
      assert t == [t[0]] + t[1..];
      [t[0]] + Insert(t[1..], x, key)
    else
      [x] + t
  }

  lemma {:induction false} InsertSorted<T>(t: seq<T>, x: T, key: T -> int)
    requires Sorted(t, key)
    ensures Sorted(Insert(t, x, key), key)
  {
    if t != [] && key(t[0]) <= key(x) {
      var rest := Insert(t[1..], x, key);
      InsertSorted(t[1..], x, key);
      var r := [t[0]] + rest;
      assert key(r[0]) <= key(r[1]);
      forall i | 1 <= i < |r| - 1 ensures key(r[i]) <= key(r[i + 1]) {
        assert r[i] == rest[i - 1] && r[i + 1] == rest[i];
      }
    } else if t != [] {
      var r := [x] + t;
      forall i | 1 <= i < |r| - 1 ensures key(r[i]) <= key(r[i + 1]) {
        assert r[i] == t[i - 1] && r[i + 1] == t[i];
      }
    }
  }

  /** The sorted permutation of `s`: each element in turn is inserted into
      the sorted prefix before it. */
  function SortBy<T>(s: seq<T>, key: T -> int): (r: seq<T>)
    ensures multiset(r) == multiset(s)
    ensures Sorted(r, key)
    decreases |s|
  {
    if s == [] then []
    else
      var init := s[..|s| - 1];
      assert s == init + [s[|s| - 1]];
      InsertSorted(SortBy(init, key), s[|s| - 1], key);
      Insert(SortBy(init, key), s[|s| - 1], key)
  }

  /** Sorting neither adds nor drops an element. */
  lemma SortSameElements<T>(s: seq<T>, key: T -> int)
    ensures forall x :: x in SortBy(s, key) <==> x in s
  {
    forall x ensures x in SortBy(s, key) <==> x in s {
      assert x in SortBy(s, key) <==> x in multiset(SortBy(s, key));
      assert x in s <==> x in multiset(s);
    }
  }

  /** A sorted list is ordered between any two positions, not just
      neighbouring ones. */
  lemma {:induction false} SortedPairwise<T>(s: seq<T>, key: T -> int, i: int, j: int)
    requires Sorted(s, key)
    requires 0 <= i <= j < |s|
    ensures key(s[i]) <= key(s[j])
    decreases j - i
  {
    if i < j {
      SortedPairwise(s, key, i + 1, j);
    }
  }

  /** `[x]` when `x` has key `k`, nothing otherwise. */
  function Pick<T>(x: T, key: T -> int, k: int): seq<T>
  {
    if key(x) == k then [x] else []
  }

  /** The elements of `s` whose key is `k`, in order. */
  function WithKey<T>(s: seq<T>, key: T -> int, k: int): seq<T>
  {
    if s == [] then [] else Pick(s[0], key, k) + WithKey(s[1..], key, k)
  }

  lemma {:induction false} WithKeyAppend<T>(a: seq<T>, b: seq<T>, key: T -> int, k: int)
    ensures WithKey(a + b, key, k) == WithKey(a, key, k) + WithKey(b, key, k)
  {
    if a == [] {
      assert a + b == b;
    } else {
      var h, t := a[0], a[1..];
      assert a + b == [h] + (t + b);
      WithKeyCons(h, t + b, key, k);
      WithKeyAppend(t, b, key, k);
      assert WithKey(a, key, k) == Pick(h, key, k) + WithKey(t, key, k);
      calc {
        WithKey(a + b, key, k);
        Pick(h, key, k) + WithKey(t + b, key, k);
        Pick(h, key, k) + (WithKey(t, key, k) + WithKey(b, key, k));
        (Pick(h, key, k) + WithKey(t, key, k)) + WithKey(b, key, k);
      }
    }
  }

  /** The tail of a sorted list is sorted. */
  lemma SortedTail<T>(t: seq<T>, key: T -> int)
    requires t != [] && Sorted(t, key)
    ensures Sorted(t[1..], key)
  {
    forall i | 0 <= i < |t[1..]| - 1 ensures key(t[1..][i]) <= key(t[1..][i + 1]) {
      assert t[1..][i] == t[i + 1] && t[1..][i + 1] == t[i + 2];
    }
  }

  /** The front element of a non-empty list followed by the rest. */
  lemma WithKeyCons<T>(x: T, t: seq<T>, key: T -> int, k: int)
    ensures WithKey([x] + t, key, k) == Pick(x, key, k) + WithKey(t, key, k)
  {
    assert ([x] + t)[0] == x && ([x] + t)[1..] == t;
  }

  lemma {:induction false} WithKeyAbove<T>(t: seq<T>, key: T -> int, k: int)
    requires Sorted(t, key)
    requires t != [] ==> key(t[0]) > k
    ensures WithKey(t, key, k) == []
  {
    if t != [] {
      SortedTail(t, key);
      WithKeyAbove(t[1..], key, k);
    }
  }

  lemma {:induction false} InsertWithKey<T>(t: seq<T>, x: T, key: T -> int, k: int)
    requires Sorted(t, key)
    ensures WithKey(Insert(t, x, key), key, k) == WithKey(t, key, k) + Pick(x, key, k)
    decreases |t|, 1
  {
    if t == [] {
      WithKeyCons(x, [], key, k);
      assert Pick(x, key, k) + [] == [] + Pick(x, key, k);
    } else if key(t[0]) <= key(x) {
      InsertBelow(t, x, key, k);
    } else {
      InsertAbove(t, x, key, k);
    }
  }

  /** `x` goes after the head, into the tail. */
  lemma {:induction false} InsertBelow<T>(t: seq<T>, x: T, key: T -> int, k: int)
    requires Sorted(t, key) && t != [] && key(t[0]) <= key(x)
    ensures WithKey(Insert(t, x, key), key, k) == WithKey(t, key, k) + Pick(x, key, k)
    decreases |t|, 0
  {
    var h, tail := t[0], t[1..];
    var rest := Insert(tail, x, key);
    var p, w, q := Pick(h, key, k), WithKey(tail, key, k), Pick(x, key, k);
    assert WithKey(Insert(t, x, key), key, k) == p + WithKey(rest, key, k) by {
      assert Insert(t, x, key) == [h] + rest;
      WithKeyCons(h, rest, key, k);
    }
    assert WithKey(rest, key, k) == w + q by {
      SortedTail(t, key);
      InsertWithKey(tail, x, key, k);
    }
    assert WithKey(t, key, k) == p + w;
    Regroup(WithKey(Insert(t, x, key), key, k), WithKey(rest, key, k), WithKey(t, key, k), p, w, q);
  }

  /** `x` goes in front; every element after it has a larger key. */
  lemma {:induction false} InsertAbove<T>(t: seq<T>, x: T, key: T -> int, k: int)
    requires Sorted(t, key) && t != [] && key(t[0]) > key(x)
    ensures WithKey(Insert(t, x, key), key, k) == WithKey(t, key, k) + Pick(x, key, k)
  {
    assert Insert(t, x, key) == [x] + t;
    WithKeyCons(x, t, key, k);
    if key(x) == k {
      WithKeyAbove(t, key, k);
      assert WithKey(t, key, k) + Pick(x, key, k) == [x];
    } else {
      assert Pick(x, key, k) == [];
      assert WithKey(t, key, k) + Pick(x, key, k) == WithKey(t, key, k);
    }
  }

  lemma InitLast<T>(s: seq<T>)
    requires s != []
    ensures s[..|s| - 1] + [s[|s| - 1]] == s
  {
  }

  /** Stability: for every key, the elements carrying it appear in the
      sorted result in the same order as in the input. */
  lemma {:induction false} SortStable<T>(s: seq<T>, key: T -> int, k: int)
    ensures WithKey(SortBy(s, key), key, k) == WithKey(s, key, k)
    decreases |s|
  {
    if s != [] {
      var init := s[..|s| - 1];
      var last := s[|s| - 1];
      InitLast(s);
      var sortedInit := SortBy(init, key);
      assert SortBy(s, key) == Insert(sortedInit, last, key);
      SortStable(init, key, k);
      InsertWithKey(sortedInit, last, key, k);
      assert WithKey(SortBy(s, key), key, k) == WithKey(init, key, k) + Pick(last, key, k);
      WithKeyAppend(init, [last], key, k);
      WithKeyCons(last, [], key, k);
      assert [last] + [] == [last];
    }
  }

  lemma {:induction false} WithKeyConstant<T>(s: seq<T>, key: T -> int, k: int)
    requires forall x :: key(x) == k
    ensures WithKey(s, key, k) == s
  {
    if s != [] {
      WithKeyConstant(s[1..], key, k);
    }
  }

  /** A comparator that always answers 0 leaves the list as it was. */
  lemma SortConstantIdentity<T>(s: seq<T>, key: T -> int, k: int)
    requires forall x :: key(x) == k
    ensures SortBy(s, key) == s
  {
    SortStable(s, key, k);
    WithKeyConstant(s, key, k);
    WithKeyConstant(SortBy(s, key), key, k);
  }
}

=== FILE: text.dfy ===
/** String helpers used by the catalogue search: lower-casing (ASCII letters
    only) and `String.prototype.includes`. */
module Text {

  function LowerChar(c: char): (r: char)
    ensures 'A' <= c <= 'Z' ==> 'a' <= r <= 'z'
    ensures !('A' <= c <= 'Z') ==> r == c
  {
    if 'A' <= c <= 'Z' then (c as int + 32) as char else c
  }

  /** `toLowerCase()` restricted to the ASCII letters. */
  function Lower(s: string): (r: string)
    ensures |r| == |s|
    ensures forall i :: 0 <= i < |s| ==> r[i] == LowerChar(s[i])
  {
    seq(|s|, i requires 0 <= i < |s| => LowerChar(s[i]))
  }

  /** `needle` occurs in `hay` at position `k`. */
  predicate OccursAt(needle: string, hay: string, k: int)
  {
    0 <= k && k + |needle| <= |hay| && hay[k..k + |needle|] == needle
  }

  /** `hay.includes(needle)`, computed by scanning every start position. */
  function Includes(hay: string, needle: string): (r: bool)
    ensures r <==> exists k :: OccursAt(needle, hay, k)
    decreases |hay|
  {
    if |needle| > |hay| then
      assert forall k :: !OccursAt(needle, hay, k);
      false
    else if hay[..|needle|] == needle then
      assert OccursAt(needle, hay, 0);
      true
    else
      var r := Includes(hay[1..], needle);
      ShiftOccurrence(needle, hay);
      r
  }

  /** An occurrence in `hay` past position 0 is an occurrence in `hay[1..]`
      one place earlier, and back. */
  lemma ShiftOccurrence(needle: string, hay: string)
    requires |hay| >= 1
    requires !OccursAt(needle, hay, 0)
    ensures (exists k :: OccursAt(needle, hay, k)) <==> (exists k :: OccursAt(needle, hay[1..], k))
  {
    if k :| OccursAt(needle, hay, k) {
      assert k >= 1;
      assert hay[1..][k - 1..k - 1 + |needle|] == hay[k..k + |needle|];
      assert OccursAt(needle, hay[1..], k - 1);
    }
    if k :| OccursAt(needle, hay[1..], k) {
      assert hay[1..][k..k + |needle|] == hay[k + 1..k + 1 + |needle|];
      assert OccursAt(needle, hay, k + 1);
    }
  }

  /** Lower-casing twice is lower-casing once. */
  lemma LowerIdempotent(s: string)
    ensures Lower(Lower(s)) == Lower(s)
  {
  }

  /** An occurrence survives lower-casing both strings. */
  lemma IncludesLower(hay: string, needle: string)
    ensures Includes(hay, needle) ==> Includes(Lower(hay), Lower(needle))
  {
    if k :| OccursAt(needle, hay, k) {
      assert Lower(hay)[k..k + |needle|] == Lower(needle);
      assert OccursAt(Lower(needle), Lower(hay), k);
    }
  }
}

=== FILE: user_layout.dfy ===
/** The header of the signed-in pages (dashboard and order history). */
module UserLayout {
  import opened Common
  import opened Session
  import opened Menus

  /** Dashboard and Order History links, drawn only for a signed-in user,
      each highlighted exactly on its own path. */
  function NavLinks(user: Option<User>, pathname: string): (r: seq<NavLink>)
    ensures user.None? <==> r == []
    ensures user.Some? ==> |r| == 2 && r[0].target == "/dashboard" && r[1].target == "/order-history"
    ensures forall i :: 0 <= i < |r| ==> (r[i].highlighted <==> r[i].target == pathname)
  {
    if user.None? then []
    else [NavLink("Dashboard", "/dashboard", pathname == "/dashboard"),
          NavLink("Order History", "/order-history", pathname == "/order-history")]
  }

  /** The dropdown: absent without a user, the role's menu with one. */
  function Dropdown(user: Option<User>): (r: Option<seq<MenuItem>>)
    ensures user.None? <==> r.None?
    ensures user.Some? ==> r.value == RoleMenu(user.value.role)
  {
    if user.Some? then Some(RoleMenu(user.value.role)) else None
  }

  /** At most one of the two links is highlighted, whatever the path. */
  lemma AtMostOneHighlighted(user: Option<User>, pathname: string)
    ensures forall i, j :: 0 <= i < j < |NavLinks(user, pathname)| ==>
      !(NavLinks(user, pathname)[i].highlighted && NavLinks(user, pathname)[j].highlighted)
  {
  }
}
